=== FILE: README.md ===
# Lime micro-framework core in Dafny

This project models the in-memory core of `Lime\App`, the application class of
the Lime PHP micro-framework, and proves properties of that model:

- the **router**: `bind` fills an insertion-ordered table from route string to
  callback; `dispatch` resolves a request path by exact key first, then by
  scanning the routes in order under three independent rules (`#...#` regex
  routes, `*` wildcard routes, `:name` segment routes); `render_route` calls the
  chosen callback and turns a `null` result into `false`;
- the **path-namespace registry** `path`: `path(ns, dir)` registers a
  normalised directory in front of the namespace's list, and `path("ns:rest")`
  returns the first registered directory plus `rest` that exists;
- the **event registry** `on` / `trigger`: per event, a PHP array of
  callbacks keyed by identifier or by the next integer index; `trigger` calls
  the callable ones in order;
- the **link helpers** `baseUrl`, `routeUrl` and the `Location` target that
  `reroute` computes;
- the free helper **`fetch_from_array`**, which reads nested arrays through
  `a/b/c` keys.

PHP ordered arrays are sequences of key/value pairs with distinct keys
(`Tables`). Strings are `seq<char>`. What lies outside the framework becomes a
function-valued parameter:

- `preg_match` on a `#...#` route is `Router.RegexOracle`. It gives the capture
  groups, or `None` when there is no match or the pattern is invalid.
- Calling a handler is `Router.HandlerOracle`. It gives the return value, or
  `None` for `null`.
- `file_exists` is `Paths.FileExists`.

Whether a stored callback is callable is part of the stored value
(`Router.Callback`). That value also records a stored `null`, which `isset`
does not see.

The wildcard rule is modelled, not treated as an oracle. The source compiles
`/a/*/b` to the PCRE pattern `#/a/(.*)/b#`: the literal pieces are quoted, each
`*` becomes a greedy group, and there are no anchors. `Wildcard` is a
backtracking matcher for exactly that shape of pattern:

- the leftmost start wins;
- each group first tries the longest span;
- `.` does not cross a newline.

Modules, one per file: `Options`, `Strings` (the PHP string functions used:
`explode`, `strpos`, `ltrim`, `rtrim`, `str_replace` on one character),
`Tables`, `Wildcard`, `Segments`, `Router`, `Examples` (route shapes like the
`/admin/:id` and `/admin/*` of the source's own comments, over any literal
segment), `Paths`,
`Events`, `Urls`, `FetchArray`.

A behaviour worth knowing is `Router.Dispatch`'s exact-key clause. A path that
is itself a registered key is rendered with no parameters, and no rule is
tried. So with `/users/:id` bound, the request path `/users/:id` calls that
handler with an empty parameter map.

## Model

| member | source | states |
|---|---|---|
| Router.Bind | Lime.php:697-706 | a false condition leaves the table as it was; otherwise the path now maps to the callback, an existing key keeps its position and every other entry is unchanged, and a new key is appended at the end |
| Router.RenderRoute | Lime.php:791-807 | the answer is a handler's value exactly when the route holds a callable callback and that handler returns non-null with the given parameters; a missing, `null` or non-callable entry, or a `null` return, gives `false` |
| Router.MatchRoute | Lime.php:729-777 | a route matches iff at least one of the three independent rules accepts it; the rules are tried in the source's order and the first to accept decides the parameters: a regex-shaped route the regex accepts gives `:captures`, else a route holding `*` that the wildcard rule accepts gives `:splat`, else a route holding `:` gives the segment match's bindings |
| Router.FirstMatch | Lime.php:724-779 | the scan finds the first route in insertion order that matches, with its parameters; every earlier route fails every rule; no result means no route matches |
| Router.Dispatch | Lime.php:713-783 | a path that is a set key is rendered with empty parameters and no scan, whatever its shape; otherwise the first matching route is rendered with its parameters; with no match the answer is `false` |
| Router.RebindWins | Lime.php:697-720 | after binding a callable to a path, dispatching that very path calls the new handler with empty parameters |
| Router.EarlierRouteWins | Lime.php:724-779 | when two routes both match, the later one is never what is rendered: the scan stops at or before the earlier one |
| Router.NullEndsScan | Lime.php:715-807 | a first matching route whose handler returns `null` makes dispatch answer `false` without trying later routes |
| Segments.ParamName | Lime.php:762-763 | a segment names a parameter exactly when it starts with `:`, and the name is the rest of the segment |
| Segments.NamedMatch | Lime.php:754-777 | a successful segment match gives a parameter table with distinct names |
| Segments.NamedMatchIff | Lime.php:754-777 | a segment route matches iff route and path split on `/` into equally many segments and every segment not starting with `:` equals the path segment at the same index |
| Segments.NamedMatchBindings | Lime.php:761-765 | a name is bound iff some route segment is `:name`; its value is the path segment at the last such index, so later duplicates overwrite earlier ones, and an empty path segment binds the empty string |
| Examples.OneParamBinds | Lime.php:751-777 | a route `/lit/:name` with a literal segment `lit` matches `/lit/` followed by any one segment and binds `name` to that segment |
| Examples.OneParamRefusesExtraSegment | Lime.php:757 | `/lit/:name` does not match a path with one more segment |
| Examples.OneStarCapturesRest | Lime.php:738-748 | `/lit/` followed by a star matches `/lit/` followed by any text without a newline, slashes included, and the splat is that text |
| Examples.OneParamRoute | Lime.php:729-777 | for the router, `/lit/:name` is neither a regex nor a wildcard route, so the segment rule decides and binds `name` to the one segment after `/lit/` |
| Examples.OneStarRoute | Lime.php:729-748 | for the router, `/lit/` followed by a star is not a regex route, so the wildcard rule decides and `:splat` is the rest of the path |
| Examples.InnerStarCapturesSegment | Lime.php:738-748 | `/lit/`, a star, then `/tail` with no `/` in `tail`, on `/lit/x/tail` for a segment `x` without `/`, captures exactly `x` |
| Wildcard.Pieces | Lime.php:741 | the route splits into one more literal piece than it has `*`s |
| Wildcard.GroupEnd | Lime.php:741 | a `(.*)` group can reach no further than the next newline |
| Wildcard.WildcardMatch | Lime.php:739-748 | `preg_match` of the compiled `*` pattern: on a match, `:splat` holds exactly one text per `*` in the route, and none of them holds a newline, since `.` stops there |
| Wildcard.WildcardMatchSound | Lime.php:739-748 | a wildcard match gives one capture per `*`, none holding a newline, and the pieces interleaved with the captures occur in the path |
| Wildcard.WildcardMatchIff | Lime.php:739-748 | for a path without newlines, a `*` route matches iff its literal pieces occur in the path in order, anywhere, as the unanchored pattern allows |
| Wildcard.TrailingStar | Lime.php:739-748 | with a single trailing `*`, when the prefix occurs in the path the route matches, and the one capture is everything after the prefix's LEFTMOST occurrence |
| Wildcard.TrailingStarMissing | Lime.php:739-748 | with a single trailing `*`, a path in which the prefix does not occur is not matched |
| Wildcard.MiddleStar | Lime.php:739-748 | for a route `p` star `q`, given the leftmost occurrence of `p`: the route matches iff `q` occurs at some position from the end of that `p` to the end of the path, and the one capture runs from the end of that `p` to the LAST such position (`LastBetween`, which `Wildcard.LastBetweenIsLast` shows is the last occurrence, and absent only when there is none) |
| Wildcard.MiddleStarMissing | Lime.php:739-748 | a route `p` star `q` never matches a path in which `p` does not occur |
| Wildcard.LastBetweenIsLast | Lime.php:741 | the end position the greedy group settles on is the last occurrence of the next piece in range: `q` occurs there and at no later position, and there is no result only when `q` occurs nowhere in range |
| Paths.NormalizeDir | Lime.php:392 | the stored directory is the given one with the separator turned into `/`, trailing `/`s and separators dropped, and exactly one `/` appended |
| Paths.Register | Lime.php:388-393 | registering adds the namespace if new, puts the normalised directory first, keeps the earlier directories after it in order, and leaves other namespaces alone |
| Paths.FirstExisting | Lime.php:376-380 | the lookup returns the first directory plus rest that exists, and nothing exactly when none exists |
| Paths.Resolve | Lime.php:369-387 | a name without `:` is returned iff it exists; a `ns:rest` name is split at its first `:`; an unknown namespace gives `false`; for a known one the answer is the first registered directory, newest first, under which `rest` exists, and `false` iff there is none |
| Paths.NewestFirst | Lime.php:376-392 | right after `path(ns, dir)`, `path("ns:rest")` finds `rest` under `dir` whenever it exists there, whatever was registered before |
| Paths.UnknownNamespace | Lime.php:373-374 | a namespace never registered resolves to `false` |
| Events.NextIndex | Lime.php:429 | an appended listener gets one more than the largest integer key, or 0 |
| Events.On | Lime.php:422-431 | other events are untouched; with an identifier, that key now holds the callback, an existing key keeps its place, every other listener of the event is unchanged, and a new identifier is appended at the end; without one, the callback is appended under the next integer index |
| Events.CallableIds | Lime.php:446-450 | the handlers called are exactly those of the callable entries of the list |
| Events.CallableIdsInOrder | Lime.php:446-450 | the calls are the callable entries read off in iteration order, each exactly once: there is an increasing list of the positions of all callable entries whose handlers are the calls, position by position |
| Events.Trigger | Lime.php:440-453 | the answer is `false` iff the event was never registered, and then nothing is called; otherwise the calls are the event's callable listeners in iteration order, each once |
| Events.AppendedListenerRunsLast | Lime.php:422-453 | a listener added without an identifier is called after every listener registered before it |
| Events.IdentifierReplacedInPlace | Lime.php:422-453 | re-registering an identifier replaces its callback where it stands, so the new handler is called at the old one's turn |
| Urls.JoinUrl | Lime.php:308-321 | the link is the base, one `/`, and the path with its leading `/`s, and only those, removed |
| Urls.BaseUrl | Lime.php:308-311 | `baseUrl` gives `base_url`, one `/`, and the path with its leading `/`s, and only those, removed |
| Urls.RouteUrl | Lime.php:318-321 | `routeUrl` gives `base_route`, one `/`, and the path with its leading `/`s, and only those, removed |
| Urls.JoinedUrlUnique | Lime.php:308-321 | that description fixes the link completely |
| Urls.LeadingSlashIgnored | Lime.php:308-321 | a path with an extra leading `/` gives the same link from `baseUrl` and `routeUrl` |
| Urls.RerouteTarget | Lime.php:328-335 | a target holding `://` is used as it is; any other is put under the route base as `routeUrl` does |
| Urls.RerouteIsRouteUrl | Lime.php:330-334 | making a local target absolute before `routeUrl` changes nothing: the redirect goes to `routeUrl(path)` |
| FetchArray.Fetch | Lime.php:1132-1175 | a null index gives the whole array; a key set directly gives its value; a key that is not set and has no `/`, or whose first `/` is at position 0 (such as `/a/b`), gives the default |
| FetchArray.DigStep | Lime.php:1155-1168 | one level of nested `isset`: a non-null value is reached iff the first key is set and the rest of the path reaches a non-null value from there |
| FetchArray.FetchFollowsPath | Lime.php:1142-1174 | a key not set directly, whose first `/` is not at position 0, gives the value at the path its `/`-separated parts spell when it has two to four parts and that value is set, and the default otherwise, including five or more parts |
| FetchArray.TwoLevels | Lime.php:1154-1157 | `a/b` reads `arr[a][b]` when it is set |
| Strings.Split | Lime.php:754-755 | `explode`: one more piece than separators, no piece holds the separator, and joining the pieces gives back the string |
| Tables.Put | Lime.php:705 | array assignment: the key maps to the new value, an existing key keeps its place, a new key is appended, other entries are unchanged |

## Left out

- PHP's loose `!=` on path segments (Lime.php:767) is modelled as plain string equality. PHP compares numeric strings as numbers, so `"01"` and `"1"` match there but not here.
- PHP array-key casting is not modelled. A segment `:1` binds the parameter name `1`, which PHP stores under the integer key 1 in the handler's array (Lime.php:763); an event identifier `"5"` or a `fetch_from_array` key `"7"` likewise becomes an integer key there. This model keeps all such keys as strings.
- FetchArray.Fetch: `isset` on a string offset, when an intermediate value is a string, is not modelled. Every non-array intermediate reads as unset.
- FetchArray.Fetch: the `case 1` branch (Lime.php:1148-1152) is dead code, because a key holding a `/` always explodes into two or more parts. It is not written.
- `#...#` regex routes are an oracle, not a regex engine. An invalid pattern makes `preg_match` return `false`, which the code treats as no match, so the oracle returns `None` for it; no error propagates.
- The three match rules are independent `if`s (Lime.php:729, 739, 752), as in the code, not an else-if chain. A `#...#` route whose regex fails is still tried as a wildcard and as a segment route.
- Wildcard.WildcardMatchIff: stated for paths without a newline. The matcher itself models `.` stopping at a newline, but the reference description assumes newline-free paths.
- Wildcard.TrailingStar: stated for paths without a newline, for the same reason.
- Wildcard.TrailingStarMissing: stated for paths without a newline, for the same reason.
- Wildcard.MiddleStar: stated for paths without a newline, for the same reason. Routes with two or more `*`s are covered only by `Wildcard.WildcardMatchIff` and `Wildcard.WildcardMatchSound`.
- Wildcard.MiddleStarMissing: stated for paths without a newline, for the same reason.
- Wildcard.WildcardMatch: PCRE's backtracking limit is not modelled. On a route with many `*`s and a long path, `preg_match` (Lime.php:743) can give up and return `false`, which the code treats as no match; the model always finds the match the backtracking order defines.
- Router.Dispatch: a handler that throws is not modelled. The exception leaves `dispatch` with no answer; the model's handlers always return.
- Events.Trigger: a listener that throws is not modelled. The exception stops the loop (Lime.php:446-450) and leaves later listeners uncalled, while the model records every callable listener as called.
- Events.Trigger: the parameters passed to the listeners, and what they return, are not modelled. Only the order of the calls is recorded.
- Urls.RerouteTarget: `header('Location: ...')` and `exit` are I/O. Only the target string is modelled.
- Paths.Resolve: `path()` called with other than one or two arguments returns `null` and does nothing, which is not modelled.
- `run` and response emission, `render`/`start`/`end`/`block` and the superglobal readers are not modelled. They are output buffering, file inclusion and request I/O.
- The `get`/`post` method gating, `bindClass`/`bindNamespace`/`invoke`, the constructor, `share`, `__invoke`/`offsetGet`, cache, session and assets are not modelled. They need reflection, foreign calls or I/O.
- The static status and MIME tables are not modelled: they are data with no behaviour.

=== FILE: events.dfy ===
/** The event registry of `App::on` and `App::trigger` (Lime.php:422-453):
    per event, a PHP array of callbacks keyed either by the identifier given
    to `on` or by the next free integer index. `trigger` calls the callable
    entries in iteration order; the calls are recorded as the sequence of
    handler ids invoked. */
module Events {
  import opened Options
  import opened Tables
  import opened Router

  /** An array key of a listener list: an automatic integer index or an
      identifier. */
  datatype EventKey = Auto(index: nat) | Named(id: string)

  type Listeners = Table<EventKey, Callback>

  type Registry = map<string, Listeners>

  /** Every listener list has distinct keys, as a PHP array does. */
  predicate Valid(reg: Registry)
  {
    forall e :: e in reg ==> Unique(reg[e])
  }

  /** The index `$a[] = ...` uses: one past the largest integer key, or 0. */
  function NextIndex(ls: Listeners): (n: nat)
    ensures forall i :: 0 <= i < |ls| && ls[i].0.Auto? ==> ls[i].0.index < n
    ensures n == 0 || exists i :: 0 <= i < |ls| && ls[i].0 == Auto(n - 1)
  {
    if |ls| == 0 then 0
    else
      var n := NextIndex(ls[1..]);
      if ls[0].0.Auto? && ls[0].0.index >= n then
        ls[0].0.index + 1
      else
        assert n > 0 ==> exists i :: 0 <= i < |ls| && ls[i].0 == Auto(n - 1) by {
          if n > 0 {
            var i :| 0 <= i < |ls[1..]| && ls[1..][i].0 == Auto(n - 1);
            assert ls[i + 1].0 == Auto(n - 1);
          }
        }
        n
  }

  /** `on($event, $callback, $identifier)`. */
  function On(reg: Registry, event: string, cb: Callback, identifier: Option<string>): (r: Registry)
    requires Valid(reg)
    ensures Valid(r)
    ensures r.Keys == reg.Keys + {event}
    ensures forall e :: e in reg && e != event ==> r[e] == reg[e]
    ensures identifier.Some? ==> Get(r[event], Named(identifier.value)) == Some(cb)
    ensures identifier.Some? && event in reg && HasKey(reg[event], Named(identifier.value))
            ==> Keys(r[event]) == Keys(reg[event])
    ensures identifier.Some? ==>
              var ls := if event in reg then reg[event] else [];
              |r[event]| >= |ls|
              && forall j :: 0 <= j < |ls| && ls[j].0 != Named(identifier.value) ==> r[event][j] == ls[j]
    ensures identifier.Some? ==>
              var ls := if event in reg then reg[event] else [];
              !HasKey(ls, Named(identifier.value)) ==> r[event] == ls + [(Named(identifier.value), cb)]
    ensures identifier.None? ==>
              r[event] == (if event in reg then reg[event] else [])
                          + [(Auto(NextIndex(if event in reg then reg[event] else [])), cb)]
  {
    var ls := if event in reg then reg[event] else [];
    match identifier
    case Some(id) => reg[event := Put(ls, Named(id), cb)]
    case None =>
      var key := Auto(NextIndex(ls));
      assert !HasKey(ls, key);
      reg[event := Put(ls, key, cb)]
  }

  /** Reference for a call sequence: `idx` lists, in increasing order and
      once each, exactly the positions of the callable entries of `ls`, and
      `ids` are their handlers, position by position. */
  predicate Picks(ls: Listeners, idx: seq<nat>, ids: seq<HandlerId>)
  {
    && |idx| == |ids|
    && (forall k :: 0 <= k < |idx| ==> idx[k] < |ls| && ls[idx[k]].1 == Callable(ids[k]))
    && (forall k, m :: 0 <= k < m < |idx| ==> idx[k] < idx[m])
    && (forall i :: 0 <= i < |ls| && ls[i].1.Callable? ==> i in idx)
  }

  /** Every position moved one place on. */
  function Shift(idx: seq<nat>): (r: seq<nat>)
    ensures |r| == |idx| && forall k :: 0 <= k < |idx| ==> r[k] == idx[k] + 1
  {
    seq(|idx|, k requires 0 <= k < |idx| => idx[k] + 1)
  }

  /** The positions picked in the tail of a list, moved one place on, are
      valid positions of the whole list carrying the same handlers, and
      still increase. */
  lemma {:induction false} PicksShifted(ls: Listeners, idx: seq<nat>, rest: seq<HandlerId>)
    requires |ls| > 0 && Picks(ls[1..], idx, rest)
    ensures forall k :: 0 <= k < |idx| ==>
              Shift(idx)[k] < |ls| && ls[Shift(idx)[k]].1 == Callable(rest[k])
    ensures forall k, m :: 0 <= k < m < |idx| ==> 0 < Shift(idx)[k] < Shift(idx)[m]
    ensures forall i :: 0 < i < |ls| && ls[i].1.Callable? ==> i in Shift(idx)
  {
    var sh := Shift(idx);
    forall k | 0 <= k < |idx|
      ensures sh[k] < |ls| && ls[sh[k]].1 == Callable(rest[k])
    {
      assert ls[1..][idx[k]] == ls[idx[k] + 1];
    }
    forall i | 0 < i < |ls| && ls[i].1.Callable?
      ensures i in sh
    {
      assert ls[1..][i - 1] == ls[i];
      assert i - 1 in idx;
      var k :| 0 <= k < |idx| && idx[k] == i - 1;
      assert sh[k] == i;
    }
  }

  /** A list whose first entry is not callable picks the tail's positions,
      moved one place on. */
  lemma {:induction false} PicksSkip(ls: Listeners, idx: seq<nat>, rest: seq<HandlerId>)
    requires |ls| > 0 && Picks(ls[1..], idx, rest) && !ls[0].1.Callable?
    ensures Picks(ls, Shift(idx), rest)
  {
    PicksShifted(ls, idx, rest);
  }

  /** Position 0 in front of positions that carry the handlers `rest`
      carries the handlers of the first entry and then `rest`. */
  lemma {:induction false} PrependCarries(ls: Listeners, sh: seq<nat>, rest: seq<HandlerId>)
    requires |ls| > 0 && ls[0].1.Callable? && |sh| == |rest|
    requires forall k :: 0 <= k < |sh| ==> sh[k] < |ls| && ls[sh[k]].1 == Callable(rest[k])
    ensures forall k :: 0 <= k < |sh| + 1 ==>
              ([0] + sh)[k] < |ls| && ls[([0] + sh)[k]].1 == Callable(([ls[0].1.id] + rest)[k])
  {
    forall k | 0 < k < |sh| + 1
      ensures ([0] + sh)[k] < |ls| && ls[([0] + sh)[k]].1 == Callable(([ls[0].1.id] + rest)[k])
    {
      assert ([0] + sh)[k] == sh[k - 1];
      assert ([ls[0].1.id] + rest)[k] == rest[k - 1];
    }
  }

  /** Position 0 in front of increasing positions after 0 still increases. */
  lemma {:induction false} PrependIncreases(sh: seq<nat>)
    requires forall k :: 0 <= k < |sh| ==> 0 < sh[k]
    requires forall k, m :: 0 <= k < m < |sh| ==> sh[k] < sh[m]
    ensures forall k, m :: 0 <= k < m < |sh| + 1 ==> ([0] + sh)[k] < ([0] + sh)[m]
  {
    forall k, m | 0 <= k < m < |sh| + 1
      ensures ([0] + sh)[k] < ([0] + sh)[m]
    {
      assert ([0] + sh)[m] == sh[m - 1];
      if k > 0 {
        assert ([0] + sh)[k] == sh[k - 1];
      }
    }
  }

  /** Positions after 0 that pick every callable entry past the first,
      with position 0 put in front, pick the whole list when its first entry
      is callable. */
  lemma {:induction false} PicksPrepend(ls: Listeners, sh: seq<nat>, rest: seq<HandlerId>)
    requires |ls| > 0 && ls[0].1.Callable? && |sh| == |rest|
    requires forall k :: 0 <= k < |sh| ==> 0 < sh[k] < |ls| && ls[sh[k]].1 == Callable(rest[k])
    requires forall k, m :: 0 <= k < m < |sh| ==> sh[k] < sh[m]
    requires forall i :: 0 < i < |ls| && ls[i].1.Callable? ==> i in sh
    ensures Picks(ls, [0] + sh, [ls[0].1.id] + rest)
  {
    PrependCarries(ls, sh, rest);
    PrependIncreases(sh);
    forall i | 0 <= i < |ls| && ls[i].1.Callable?
      ensures i in [0] + sh
    {
      if i > 0 {
        assert i in sh;
      }
    }
  }

  /** A list whose first entry is callable picks position 0 and then the
      tail's positions, moved one place on. */
  lemma {:induction false} PicksFront(ls: Listeners, idx: seq<nat>, rest: seq<HandlerId>)
    requires |ls| > 0 && Picks(ls[1..], idx, rest) && ls[0].1.Callable?
    ensures Picks(ls, [0] + Shift(idx), [ls[0].1.id] + rest)
  {
    PicksShifted(ls, idx, rest);
    PicksPrepend(ls, Shift(idx), rest);
  }

  /** The handler ids of the callable entries, in iteration order. */
  function CallableIds(ls: Listeners): (ids: seq<HandlerId>)
    ensures |ids| <= |ls|
    ensures forall h :: h in ids <==> exists i :: 0 <= i < |ls| && ls[i].1 == Callable(h)
  {
    if |ls| == 0 then []
    else
      var rest := CallableIds(ls[1..]);
      assert forall h :: (exists i :: 0 <= i < |ls[1..]| && ls[1..][i].1 == Callable(h))
                     <==> (exists i :: 1 <= i < |ls| && ls[i].1 == Callable(h)) by {
        forall h
          ensures (exists i :: 0 <= i < |ls[1..]| && ls[1..][i].1 == Callable(h))
              <==> (exists i :: 1 <= i < |ls| && ls[i].1 == Callable(h))
        {
          if exists i :: 1 <= i < |ls| && ls[i].1 == Callable(h) {
            var i :| 1 <= i < |ls| && ls[i].1 == Callable(h);
            assert ls[1..][i - 1].1 == Callable(h);
          }
        }
      }
      match ls[0].1
      case Callable(h) => [h] + rest
      case _ => rest
  }

  /** The calls are the callable entries in iteration order, each once: the
      increasing positions of all callable entries, read off in turn. */
  lemma {:induction false} CallableIdsInOrder(ls: Listeners)
    ensures exists idx :: Picks(ls, idx, CallableIds(ls))
    decreases |ls|
  {
    if |ls| == 0 {
      assert CallableIds(ls) == [];
      assert Picks(ls, [], []);
    } else {
      CallableIdsInOrder(ls[1..]);
      var rest := CallableIds(ls[1..]);
      var idx :| Picks(ls[1..], idx, rest);
      if ls[0].1.Callable? {
        PicksFront(ls, idx, rest);
        assert CallableIds(ls) == [ls[0].1.id] + rest;
        assert Picks(ls, [0] + Shift(idx), CallableIds(ls));
      } else {
        PicksSkip(ls, idx, rest);
        assert CallableIds(ls) == rest;
        assert Picks(ls, Shift(idx), CallableIds(ls));
      }
    }
  }

  /** What `trigger` did: its return value and the calls it made. */
  datatype Fired = Fired(result: bool, calls: seq<HandlerId>)

  /** `trigger($event)`. */
  function Trigger(reg: Registry, event: string): (r: Fired)
    ensures !r.result <==> event !in reg
    ensures !r.result ==> r.calls == []
    ensures r.result ==> r.calls == CallableIds(reg[event])
    ensures r.result ==> exists idx :: Picks(reg[event], idx, r.calls)
    ensures r.result ==> forall h :: h in r.calls <==> exists i :: 0 <= i < |reg[event]| && reg[event][i].1 == Callable(h)
  {
    if event !in reg then Fired(false, [])
    else
      CallableIdsInOrder(reg[event]);
      Fired(true, CallableIds(reg[event]))
  }

  /** Calls over two lists in a row are the calls of the first, then those
      of the second. */
  lemma {:induction false} CallableIdsConcat(a: Listeners, b: Listeners)
    ensures CallableIds(a + b) == CallableIds(a) + CallableIds(b)
    decreases |a|
  {
    if |a| == 0 {
      assert a + b == b;
    } else {
      assert (a + b)[0] == a[0];
      assert (a + b)[1..] == a[1..] + b;
      CallableIdsConcat(a[1..], b);
    }
  }

  lemma CallableIdsAppend(ls: Listeners, k: EventKey, cb: Callback)
    ensures CallableIds(ls + [(k, cb)])
         == CallableIds(ls) + (if cb.Callable? then [cb.id] else [])
  {
    CallableIdsConcat(ls, [(k, cb)]);
  }

  /** A listener added without an identifier is called last, after every
      listener registered before it; the event then counts as registered. */
  lemma AppendedListenerRunsLast(reg: Registry, event: string, h: HandlerId)
    requires Valid(reg)
    ensures Trigger(On(reg, event, Callable(h), None), event)
         == Fired(true, (if event in reg then CallableIds(reg[event]) else []) + [h])
  {
    var ls := if event in reg then reg[event] else [];
    CallableIdsAppend(ls, Auto(NextIndex(ls)), Callable(h));
  }

  lemma CallableIdsReplace(ls: Listeners, i: nat, cb: Callback)
    requires i < |ls|
    ensures CallableIds(ls[i := (ls[i].0, cb)])
         == CallableIds(ls[..i]) + (if cb.Callable? then [cb.id] else []) + CallableIds(ls[i + 1..])
  {
    var one: Listeners := [(ls[i].0, cb)];
    assert ls[i := (ls[i].0, cb)] == ls[..i] + one + ls[i + 1..];
    CallableIdsConcat(ls[..i] + one, ls[i + 1..]);
    CallableIdsConcat(ls[..i], one);
  }

  /** Re-registering an identifier replaces its callback where it stands:
      the new callback is called at the old one's turn. */
  lemma IdentifierReplacedInPlace(reg: Registry, event: string, id: string, i: nat, h: HandlerId)
    requires Valid(reg) && event in reg
    requires i < |reg[event]| && reg[event][i].0 == Named(id)
    ensures Trigger(On(reg, event, Callable(h), Some(id)), event).calls
         == CallableIds(reg[event][..i]) + [h] + CallableIds(reg[event][i + 1..])
  {
    var ls := reg[event];
    assert Find(ls, Named(id), 0) == Some(i);
    assert Put(ls, Named(id), Callable(h)) == ls[i := (Named(id), Callable(h))];
    CallableIdsReplace(ls, i, Callable(h));
  }
}

=== FILE: examples.dfy ===
/** Route shapes like the `/admin/:id` of the source's own comments
    (Lime.php:751) and its `/admin/` followed by a star (Lime.php:738),
    checked against the matchers for any literal segment `lit`: `/lit/:name` binds the one segment after `/lit/` and refuses
    a longer path; `/lit/` followed by a star captures the whole rest of the
    path, slashes included; and a star between `/lit/` and `/tail` captures
    just the segment between them. */
module Examples {
  import opened Options
  import opened Strings
  import opened Tables
  import opened Wildcard
  import opened Segments
  import opened Router

  /** `/` + `a` + `/` + `b` splits into the empty text, `a`, and the pieces of `b`. */
  lemma TwoLeadingSegments(a: string, b: string)
    requires '/' !in a
    ensures Split("/" + a + "/" + b, '/') == ["", a] + Split(b, '/')
  {
    var tail := a + ['/'] + b;
    assert "/" + a + "/" + b == "" + ['/'] + tail;
    SplitAfterPiece("", tail, '/');
    SplitAfterPiece(a, b, '/');
    assert [""] + ([a] + Split(b, '/')) == ["", a] + Split(b, '/');
  }

  /** Three segments: the empty text before the leading `/`, `a` and `b`. */
  lemma ThreeSegments(a: string, b: string)
    requires '/' !in a && '/' !in b
    ensures Split("/" + a + "/" + b, '/') == ["", a, b]
  {
    TwoLeadingSegments(a, b);
    SplitNoSeparator(b, '/');
  }

  /** `/lit/:name` on `/lit/id`, for an id without `/`, binds exactly `name`
      to `id`. */
  lemma OneParamBinds(lit: string, name: string, id: string)
    requires '/' !in lit && '/' !in name && '/' !in id
    requires |lit| == 0 || lit[0] != ':'
    ensures NamedMatch("/" + lit + "/" + ([':'] + name), "/" + lit + "/" + id)
         == Some([(name, Text(id))])
  {
    var seg := [':'] + name;
    assert '/' !in seg by {
      assert forall i :: 0 <= i < |seg| ==> seg[i] == (if i == 0 then ':' else name[i - 1]);
    }
    ThreeSegments(lit, seg);
    ThreeSegments(lit, id);
    var rs := ["", lit, seg];
    var ps := ["", lit, id];
    assert ParamName(seg) == Some(name) by {
      assert seg[1..] == name;
    }
    var bound := [(name, Text(id))];
    assert Put([], name, Text(id)) == bound;
    assert Walk(rs, ps, 3, bound) == Some(bound);
    assert Walk(rs, ps, 2, []) == Some(bound);
    assert ParamName(rs[1]).None?;
    assert Walk(rs, ps, 1, []) == Some(bound);
  }

  /** A fourth segment makes the counts differ: no match. */
  lemma OneParamRefusesExtraSegment(lit: string, name: string, id: string, extra: string)
    requires '/' !in lit && '/' !in name && '/' !in id
    ensures NamedMatch("/" + lit + "/" + ([':'] + name), "/" + lit + "/" + id + "/" + extra).None?
  {
    var seg := [':'] + name;
    assert '/' !in seg by {
      assert forall i :: 0 <= i < |seg| ==> seg[i] == (if i == 0 then ':' else name[i - 1]);
    }
    ThreeSegments(lit, seg);
    var rest := id + ['/'] + extra;
    assert "/" + lit + "/" + id + "/" + extra == "/" + lit + "/" + rest;
    TwoLeadingSegments(lit, rest);
    SplitAfterPiece(id, extra, '/');
  }

  /** `/lit/` and a star on `/lit/` and any text without a line feed
      captures that text. */
  lemma OneStarCapturesRest(lit: string, rest: string)
    requires '*' !in lit && '\n' !in lit && NoNewline(rest)
    ensures WildcardMatch("/" + lit + "/*", "/" + lit + "/" + rest) == Some([rest])
  {
    var p := "/" + lit + "/";
    var path := p + rest;
    assert '*' !in p by {
      assert forall i :: 0 <= i < |p| ==> p[i] == (if i == 0 || i == |p| - 1 then '/' else lit[i - 1]);
    }
    assert NoNewline(path) by {
      assert forall i :: 0 <= i < |path| ==>
        path[i] == (if i == 0 || i == |p| - 1 then '/' else if i < |p| then lit[i - 1] else rest[i - |p|]);
    }
    assert "/" + lit + "/*" == p + "*";
    assert PrefixAt(p, path, 0);
    assert IndexOf(p, path, 0) == Some(0);
    TrailingStar(p, path, 0);
    assert path[|p|..] == rest;
  }

  /** `/lit/` star `/tail`, with `tail` free of `/`, on `/lit/x/tail` for a
      segment `x` captures exactly `x`: the star stops at the last `/tail`,
      and the only one is the path's own end. */
  lemma InnerStarCapturesSegment(lit: string, x: string, tail: string)
    requires '*' !in lit && '*' !in tail && '\n' !in lit && '\n' !in tail
    requires NoNewline(x) && '/' !in x && '/' !in tail
    ensures WildcardMatch("/" + lit + "/*/" + tail, "/" + lit + "/" + x + "/" + tail) == Some([x])
  {
    var p := "/" + lit + "/";
    var q := "/" + tail;
    var path := p + x + q;
    assert "/" + lit + "/*/" + tail == p + "*" + q;
    assert "/" + lit + "/" + x + "/" + tail == path;
    assert '*' !in p by {
      assert forall i :: 0 <= i < |p| ==> p[i] == (if i == 0 || i == |p| - 1 then '/' else lit[i - 1]);
    }
    assert '*' !in q && '\n' !in q by {
      assert forall i :: 0 <= i < |q| ==> q[i] == (if i == 0 then '/' else tail[i - 1]);
    }
    assert NoNewline(path) by {
      assert forall i :: 0 <= i < |path| ==>
        path[i] == (if i < |p| then p[i] else if i < |p| + |x| then x[i - |p|] else q[i - |p| - |x|]);
      assert forall i :: 0 <= i < |p| ==> p[i] == (if i == 0 || i == |p| - 1 then '/' else lit[i - 1]);
    }
    assert PrefixAt(p, path, 0);
    assert IndexOf(p, path, 0) == Some(0);
    MiddleStar(p, q, path, 0);
    assert path == (p + x) + "/" + tail;
    LastSlashTail(p + x, tail, |p|);
    assert path[|p|..|p| + |x|] == x;
  }

  /** In `pre + "/" + tail`, with `tail` free of `/`, the last `/tail` is the
      one at the end. */
  lemma LastSlashTail(pre: string, tail: string, lo: nat)
    requires '/' !in tail && lo <= |pre|
    ensures LastBetween("/" + tail, pre + "/" + tail, lo, |pre| + 1 + |tail|) == Some(|pre|)
  {
    var q := "/" + tail;
    var s := pre + q;
    assert pre + "/" + tail == s;
    assert PrefixAt(q, s, |pre|);
    LastBetweenIsLast(q, s, lo, |s|);
  }

  /** The router's view of `/lit/:name`: a route starting with `/` is not a
      regex route and, holding no `*`, not a wildcard route, so the segment
      rule decides and binds `name` to the one segment after `/lit/`. */
  lemma OneParamRoute(lit: string, name: string, id: string, regex: RegexOracle)
    requires '/' !in lit && '/' !in name && '/' !in id && '*' !in lit && '*' !in name
    requires |lit| == 0 || lit[0] != ':'
    ensures MatchRoute("/" + lit + "/" + ([':'] + name), "/" + lit + "/" + id, regex)
         == Some([(name, Text(id))])
  {
    var route := "/" + lit + "/" + ([':'] + name);
    assert route[0] == '/' && route[|lit| + 2] == ':';
    assert '*' !in route by {
      assert forall i :: 0 <= i < |route| ==>
        route[i] == (if i == 0 || i == |lit| + 1 then '/' else if i <= |lit| then lit[i - 1]
                     else if i == |lit| + 2 then ':' else name[i - |lit| - 3]);
    }
    OneParamBinds(lit, name, id);
  }

  /** The router's view of `/lit/` followed by a star: not a regex route,
      so the wildcard rule decides and `:splat` is the rest of the path. */
  lemma OneStarRoute(lit: string, rest: string, regex: RegexOracle)
    requires '*' !in lit && '\n' !in lit && NoNewline(rest)
    ensures MatchRoute("/" + lit + "/*", "/" + lit + "/" + rest, regex)
         == Some([(":splat", List([rest]))])
  {
    var route := "/" + lit + "/*";
    assert route[0] == '/' && route[|route| - 1] == '*';
    OneStarCapturesRest(lit, rest);
  }
}

=== FILE: fetch.dfy ===
/** The free helper `fetch_from_array` (Lime.php:1132-1175): read a value
    out of a nested PHP array by a key, where a key holding `/` may name a
    path two to four levels deep. PHP values are modelled as `null`, a
    scalar, or an array keyed by string. */
module FetchArray {
  import opened Options
  import opened Strings

  datatype Value = Null | Scalar(text: string) | Arr(entries: map<string, Value>)

  /** `isset($m[$k])`: present and not `null`. */
  predicate IsSetIn(m: map<string, Value>, k: string)
  {
    k in m && !m[k].Null?
  }

  /** Reference: the value reached by following `keys` from `v`, or `Null`
      as soon as a step is missing or leaves the arrays. */
  function Dig(v: Value, keys: seq<string>): Value
    decreases |keys|
  {
    if |keys| == 0 then v
    else if v.Arr? && keys[0] in v.entries then Dig(v.entries[keys[0]], keys[1..])
    else Null
  }

  /** One step of `Dig`: a non-null value is reached exactly when the first
      key is set one level down and the rest of the path reaches a non-null
      value from there. */
  lemma {:induction false} DigStep(v: Value, keys: seq<string>)
    requires |keys| >= 1
    ensures !Dig(v, keys).Null? <==>
              SetBelow(v, keys[0]) && !Dig(v.entries[keys[0]], keys[1..]).Null?
    ensures !Dig(v, keys).Null? ==> Dig(v, keys) == Dig(v.entries[keys[0]], keys[1..])
  {
    if v.Arr? && keys[0] in v.entries && v.entries[keys[0]].Null? && |keys| > 1 {
      assert Dig(Null, keys[1..]) == Null;
    }
  }

  /** The key passes the source's `strpos` test, which treats position 0
      as false: there is a `/`, and the first one is not at position 0. */
  predicate SlashAfterStart(k: string)
  {
    '/' in k && k[0] != '/'
  }

  /** `isset($v[$k])` one level down from a value. */
  predicate SetBelow(v: Value, k: string)
  {
    v.Arr? && IsSetIn(v.entries, k)
  }

  /** `fetch_from_array($array, $index, $default)`; `index` is `None` for
      PHP's `null`. The `case 1` of the source cannot be reached once the key
      holds a `/`, and is not written here. */
  function Fetch(arr: map<string, Value>, index: Option<string>, default: Value): (r: Value)
    ensures index.None? ==> r == Arr(arr)
    ensures index.Some? && IsSetIn(arr, index.value) ==> r == arr[index.value]
    ensures index.Some? && !IsSetIn(arr, index.value) && !SlashAfterStart(index.value) ==> r == default
  {
    match index
    case None => Arr(arr)
    case Some(k) =>
      if IsSetIn(arr, k) then arr[k]
      else if SlashAfterStart(k) then
        var keys := Split(k, '/');
        if |keys| == 2 then
          if SetBelow(Arr(arr), keys[0]) && SetBelow(arr[keys[0]], keys[1])
          then arr[keys[0]].entries[keys[1]] else default
        else if |keys| == 3 then
          if SetBelow(Arr(arr), keys[0]) && SetBelow(arr[keys[0]], keys[1])
             && SetBelow(arr[keys[0]].entries[keys[1]], keys[2])
          then arr[keys[0]].entries[keys[1]].entries[keys[2]] else default
        else if |keys| == 4 then
          if SetBelow(Arr(arr), keys[0]) && SetBelow(arr[keys[0]], keys[1])
             && SetBelow(arr[keys[0]].entries[keys[1]], keys[2])
             && SetBelow(arr[keys[0]].entries[keys[1]].entries[keys[2]], keys[3])
          then arr[keys[0]].entries[keys[1]].entries[keys[2]].entries[keys[3]] else default
        else default
      else default
  }

  /** The nested reading agrees with the reference `Dig`: a key that is not
      set directly and whose first `/` is not at position 0 yields the value
      at the path its two to four parts spell when that value is set, and
      the default otherwise. */
  lemma {:induction false} FetchFollowsPath(arr: map<string, Value>, k: string, default: Value)
    requires !IsSetIn(arr, k) && SlashAfterStart(k)
    ensures var keys := Split(k, '/');
            Fetch(arr, Some(k), default) ==
              if 2 <= |keys| <= 4 && !Dig(Arr(arr), keys).Null? then Dig(Arr(arr), keys) else default
  {
    var keys := Split(k, '/');
    if 2 <= |keys| <= 4 {
      var v0 := Arr(arr);
      DigStep(v0, keys);
      if SetBelow(v0, keys[0]) {
        var v1 := arr[keys[0]];
        DigStep(v1, keys[1..]);
        if SetBelow(v1, keys[1]) && |keys| >= 3 {
          var v2 := v1.entries[keys[1]];
          assert keys[1..][1..] == keys[2..];
          DigStep(v2, keys[2..]);
          if SetBelow(v2, keys[2]) && |keys| == 4 {
            var v3 := v2.entries[keys[2]];
            assert keys[2..][1..] == keys[3..];
            DigStep(v3, keys[3..]);
            assert keys[3..][1..] == [];
          } else if |keys| == 3 {
            assert keys[2..][1..] == [];
          }
        } else if |keys| == 2 {
          assert keys[1..][1..] == [];
        }
      }
    }
  }

  /** Two levels: `a/b` reads `arr[a][b]` when it is set and `a` is not
      empty and holds no `/`. */
  lemma {:induction false} TwoLevels(arr: map<string, Value>, a: string, b: string, default: Value)
    requires a != "" && '/' !in a && '/' !in b
    requires !IsSetIn(arr, a + "/" + b)
    requires a in arr && arr[a].Arr? && IsSetIn(arr[a].entries, b)
    ensures Fetch(arr, Some(a + "/" + b), default) == arr[a].entries[b]
  {
    var k := a + "/" + b;
    assert k == a + ['/'] + b;
    SplitAfterPiece(a, b, '/');
    SplitNoSeparator(b, '/');
    assert Split(k, '/') == [a, b];
    assert k[0] == a[0] && k[|a|] == '/';
    FetchFollowsPath(arr, k, default);
    var keys := [a, b];
    DigStep(Arr(arr), keys);
    DigStep(arr[a], keys[1..]);
    assert keys[1..][1..] == [];
  }
}

=== FILE: options.dfy ===
/** The Some/None datatype used wherever the framework answers `false` or
    `null` for "nothing there". */
module Options {

  datatype Option<+T> = None | Some(value: T)
}

=== FILE: paths.dfy ===
/** The path-namespace registry of `App::path` (Lime.php:364-395). With two
    arguments it registers a directory under a namespace; with one argument
    `ns:rest` it looks `rest` up in the namespace's directories, newest
    first, and a name without `:` is looked up as it is. Whether a file exists
    is a question to the file system and is a parameter here. */
module Paths {
  import opened Options
  import opened Strings

  /** Namespace to directories, most recently registered first. */
  type Registry = map<string, seq<string>>

  type FileExists = string -> bool

  /** The directory as stored: `sep` (PHP's `DIRECTORY_SEPARATOR`) turned
      into `/`, trailing `/`s dropped, one `/` appended. */
  function NormalizeDir(dir: string, sep: char): (d: string)
    ensures |d| >= 1 && d[|d| - 1] == '/'
    ensures |d| == 1 || d[|d| - 2] != '/'
    ensures |d| - 1 <= |dir|
    ensures forall i :: 0 <= i < |d| - 1 ==> d[i] == (if dir[i] == sep then '/' else dir[i])
    ensures forall i :: |d| - 1 <= i < |dir| ==> dir[i] == sep || dir[i] == '/'
  {
    var unified := ReplaceChar(dir, sep, '/');
    var trimmed := RTrim(unified, '/');
    trimmed + "/"
  }

  /** `path(ns, dir)`: prepend the normalised directory to the namespace's
      list, creating the list on first use. */
  function Register(reg: Registry, ns: string, dir: string, sep: char): (r: Registry)
    ensures r.Keys == reg.Keys + {ns}
    ensures |r[ns]| >= 1
    ensures r[ns][0] == NormalizeDir(dir, sep)
    ensures r[ns][1..] == (if ns in reg then reg[ns] else [])
    ensures forall other :: other in reg && other != ns ==> r[other] == reg[other]
  {
    var dirs := if ns in reg then reg[ns] else [];
    reg[ns := [NormalizeDir(dir, sep)] + dirs]
  }

  /** The first directory of `dirs` under which `rest` exists. */
  function FirstExisting(dirs: seq<string>, rest: string, onDisk: FileExists): (r: Option<string>)
    ensures r.None? <==> forall k :: 0 <= k < |dirs| ==> !onDisk(dirs[k] + rest)
    ensures r.Some? ==> exists k :: 0 <= k < |dirs| && r.value == dirs[k] + rest
                          && onDisk(r.value)
                          && forall j :: 0 <= j < k ==> !onDisk(dirs[j] + rest)
  {
    if |dirs| == 0 then None
    else if onDisk(dirs[0] + rest) then
      assert 0 <= 0 < |dirs| && onDisk(dirs[0] + rest);
      Some(dirs[0] + rest)
    else
      var r := FirstExisting(dirs[1..], rest, onDisk);
      if r.Some? then
        var k :| 0 <= k < |dirs[1..]| && r.value == dirs[1..][k] + rest && onDisk(r.value)
                 && forall j :: 0 <= j < k ==> !onDisk(dirs[1..][j] + rest);
        assert r.value == dirs[k + 1] + rest;
        assert forall j :: 0 <= j < k + 1 ==> !onDisk(dirs[j] + rest) by {
          forall j | 0 <= j < k + 1
            ensures !onDisk(dirs[j] + rest)
          {
            if j > 0 {
              assert dirs[j] == dirs[1..][j - 1];
            }
          }
        }
        r
      else
        assert forall k :: 0 <= k < |dirs| ==> !onDisk(dirs[k] + rest) by {
          forall k | 0 <= k < |dirs|
            ensures !onDisk(dirs[k] + rest)
          {
            if k > 0 {
              assert dirs[k] == dirs[1..][k - 1];
            }
          }
        }
        r
  }

  /** `path(file)`: `false` (here `None`) for an unknown namespace or when no
      candidate exists. */
  function Resolve(reg: Registry, file: string, onDisk: FileExists): (r: Option<string>)
    ensures r.Some? ==> onDisk(r.value)
    ensures ':' !in file ==> r == (if onDisk(file) then Some(file) else None)
    ensures ':' in file && SplitFirst(file, ':').value.0 !in reg ==> r.None?
    ensures ':' in file && SplitFirst(file, ':').value.0 in reg ==>
              var (ns, rest) := SplitFirst(file, ':').value;
              (r.None? <==> forall k :: 0 <= k < |reg[ns]| ==> !onDisk(reg[ns][k] + rest))
    ensures ':' in file && SplitFirst(file, ':').value.0 in reg && r.Some? ==>
              var (ns, rest) := SplitFirst(file, ':').value;
              exists k :: 0 <= k < |reg[ns]| && r.value == reg[ns][k] + rest
                && forall j :: 0 <= j < k ==> !onDisk(reg[ns][j] + rest)
  {
    match SplitFirst(file, ':')
    case Some((ns, rest)) =>
      if ns !in reg then None else FirstExisting(reg[ns], rest, onDisk)
    case None =>
      if onDisk(file) then Some(file) else None
  }

  /** The newest directory is searched first: right after `path(ns, dir)`,
      `path("ns:rest")` finds `rest` under `dir` whenever it exists there,
      whatever was registered before. `rest` may itself hold `:`. */
  lemma {:induction false} NewestFirst(reg: Registry, ns: string, dir: string, sep: char,
                                       rest: string, onDisk: FileExists)
    requires ':' !in ns
    requires onDisk(NormalizeDir(dir, sep) + rest)
    ensures Resolve(Register(reg, ns, dir, sep), ns + ":" + rest, onDisk)
         == Some(NormalizeDir(dir, sep) + rest)
  {
    SplitFirstOf(ns, rest, ':');
    assert ns + ":" + rest == ns + [':'] + rest;
  }

  /** A namespace never registered resolves to `false`. */
  lemma UnknownNamespace(reg: Registry, ns: string, rest: string, onDisk: FileExists)
    requires ':' !in ns && ns !in reg
    ensures Resolve(reg, ns + ":" + rest, onDisk).None?
  {
    SplitFirstOf(ns, rest, ':');
    assert ns + ":" + rest == ns + [':'] + rest;
  }
}

=== FILE: router.dfy ===
/** The router of `Lime\App` (Lime.php:697-807): an insertion-ordered table
    from route string to callback, `bind` to fill it, `dispatch` to resolve a
    path, and `render_route` to call the chosen callback.

    Three things the router consults lie outside it and are parameters here:
    - `regex`: `preg_match(route, path)` for routes written as `#...#`, giving
      the capture groups after the whole match, or `None` for no match (an
      invalid pattern also gives `None`: `preg_match` returns `false`);
    - `handler`: calling a callable callback with the parameter array,
      giving its return value, or `None` when it returns `null`;
    - which callbacks are callable, recorded in the `Callback` value. */
module Router {
  import opened Options
  import opened Strings
  import opened Tables
  import opened Wildcard
  import opened Segments

  type HandlerId = nat

  /** What `bind` stored: something callable, a value that is not callable,
      or `null` (which `isset` does not see). */
  datatype Callback = Callable(id: HandlerId) | NotCallable | NullValue

  type Routes = Table<string, Callback>

  /** `dispatch`'s answer: a handler's return value, or `false`. */
  datatype Answer<V> = Reply(value: V) | False

  type RegexOracle = (string, string) -> Option<seq<string>>
  type HandlerOracle<V> = (HandlerId, Params) -> Option<V>

  /** `bind($path, $callback, $condition)`. */
  function Bind(routes: Routes, path: string, cb: Callback, condition: bool): (r: Routes)
    requires Unique(routes)
    ensures Unique(r) && |r| >= |routes|
    ensures !condition ==> r == routes
    ensures condition ==> Get(r, path) == Some(cb)
    ensures condition ==> forall j :: 0 <= j < |routes| && routes[j].0 != path ==> r[j] == routes[j]
    ensures condition && HasKey(routes, path) ==> Keys(r) == Keys(routes)
    ensures condition && !HasKey(routes, path) ==> r == routes + [(path, cb)]
  {
    if !condition then routes else Put(routes, path, cb)
  }

  /** `isset($this->routes[$key])`: the key is there and not `null`. */
  predicate IsSetKey(routes: Routes, key: string)
  {
    Get(routes, key).Some? && !Get(routes, key).value.NullValue?
  }

  /** The callback is called: the key is set to something callable. */
  predicate Invokes(routes: Routes, key: string)
  {
    Get(routes, key).Some? && Get(routes, key).value.Callable?
  }

  /** `render_route($route, $params)`. */
  function RenderRoute<V>(routes: Routes, route: string, params: Params, handler: HandlerOracle<V>): (r: Answer<V>)
    ensures r.Reply? ==> Invokes(routes, route) && handler(Get(routes, route).value.id, params) == Some(r.value)
    ensures Invokes(routes, route) && handler(Get(routes, route).value.id, params).Some? ==> r.Reply?
  {
    var stored: Option<Callback> := Get(routes, route);
    match stored
    case Some(Callable(h)) =>
      (match handler(h, params)
       case Some(v) => Reply(v)
       case None => False)
    case _ => False
  }

  /** The route's first and last characters are both `#`; a lone `#`
      counts, its one character being both. */
  predicate IsRegexShaped(route: string)
  {
    |route| >= 1 && route[0] == '#' && route[|route| - 1] == '#'
  }

  /** The three rules of the scan, tried on one route: the regex rule, then
      the wildcard rule, then the named rule. They are independent checks, so
      a `#...#` route whose regex fails is still tried as a wildcard and as a
      named route. */
  function MatchRoute(route: string, path: string, regex: RegexOracle): (r: Option<Params>)
    ensures r.Some? ==>
              || (IsRegexShaped(route) && regex(route, path).Some?
                  && r.value == [(":captures", List(regex(route, path).value))])
              || ('*' in route && WildcardMatch(route, path).Some?
                  && r.value == [(":splat", List(WildcardMatch(route, path).value))])
              || (':' in route && NamedMatch(route, path) == r)
    ensures r.None? <==>
              && !(IsRegexShaped(route) && regex(route, path).Some?)
              && !('*' in route && WildcardMatch(route, path).Some?)
              && !(':' in route && NamedMatch(route, path).Some?)
    ensures IsRegexShaped(route) && regex(route, path).Some? ==>
              r == Some([(":captures", List(regex(route, path).value))])
    ensures !(IsRegexShaped(route) && regex(route, path).Some?)
            && '*' in route && WildcardMatch(route, path).Some? ==>
              r == Some([(":splat", List(WildcardMatch(route, path).value))])
    ensures !(IsRegexShaped(route) && regex(route, path).Some?)
            && !('*' in route && WildcardMatch(route, path).Some?)
            && ':' in route ==>
              r == NamedMatch(route, path)
  {
    if IsRegexShaped(route) && regex(route, path).Some? then
      Some([(":captures", List(regex(route, path).value))])
    else if '*' in route && WildcardMatch(route, path).Some? then
      Some([(":splat", List(WildcardMatch(route, path).value))])
    else if ':' in route && NamedMatch(route, path).Some? then
      NamedMatch(route, path)
    else None
  }

  /** The `foreach` over the routes from index `from`: the first route that
      matches, with its parameters. */
  function FirstMatch(routes: Routes, path: string, regex: RegexOracle, from: nat): (r: Option<(nat, Params)>)
    ensures r.Some? ==> from <= r.value.0 < |routes|
    ensures r.Some? ==> MatchRoute(routes[r.value.0].0, path, regex) == Some(r.value.1)
    ensures r.Some? ==> forall j :: from <= j < r.value.0 ==> MatchRoute(routes[j].0, path, regex).None?
    ensures r.None? ==> forall j :: from <= j < |routes| ==> MatchRoute(routes[j].0, path, regex).None?
    decreases |routes| - from
  {
    if from >= |routes| then None
    else match MatchRoute(routes[from].0, path, regex)
      case Some(params) => Some((from, params))
      case None => FirstMatch(routes, path, regex, from + 1)
  }

  /** `dispatch($path)`. */
  function Dispatch<V>(routes: Routes, path: string, regex: RegexOracle, handler: HandlerOracle<V>): (r: Answer<V>)
    requires Unique(routes)
    ensures IsSetKey(routes, path) ==> r == RenderRoute(routes, path, [], handler)
    ensures !IsSetKey(routes, path) ==>
              forall k :: 0 <= k < |routes| && MatchRoute(routes[k].0, path, regex).Some?
                       && (forall j :: 0 <= j < k ==> MatchRoute(routes[j].0, path, regex).None?)
                       ==> r == RenderRoute(routes, routes[k].0, MatchRoute(routes[k].0, path, regex).value, handler)
    ensures !IsSetKey(routes, path)
            && (forall k :: 0 <= k < |routes| ==> MatchRoute(routes[k].0, path, regex).None?)
            ==> r == False
  {
    if IsSetKey(routes, path) then
      RenderRoute(routes, path, [], handler)
    else
      match FirstMatch(routes, path, regex, 0)
      case Some((k, params)) => RenderRoute(routes, routes[k].0, params, handler)
      case None => False
  }

  /** The result of calling callable `h` with `params` as `render_route`
      reports it: `null` becomes `false`. */
  function Outcome<V>(handler: HandlerOracle<V>, h: HandlerId, params: Params): Answer<V>
  {
    match handler(h, params)
    case Some(v) => Reply(v)
    case None => False
  }

  /** Binding a callable to a path makes dispatching exactly that path call
      it with an empty parameter array, whatever was bound there before and
      whatever pattern syntax the path contains: only the latest binding is
      ever used. */
  lemma {:induction false} RebindWins<V>(routes: Routes, path: string, h: HandlerId,
                                         regex: RegexOracle, handler: HandlerOracle<V>)
    requires Unique(routes)
    ensures Dispatch(Bind(routes, path, Callable(h), true), path, regex, handler)
         == Outcome(handler, h, [])
  {
    var r := Bind(routes, path, Callable(h), true);
    assert Get(r, path) == Some(Callable(h));
    assert IsSetKey(r, path) && Invokes(r, path);
  }

  /** Registration order decides between overlapping routes: when routes
      `a < b` both match a path that is not itself a set key, the route
      rendered is `a` or one before it, never `b`. */
  lemma {:induction false} EarlierRouteWins<V>(routes: Routes, path: string, a: nat, b: nat,
                                               regex: RegexOracle, handler: HandlerOracle<V>)
    requires Unique(routes) && !IsSetKey(routes, path)
    requires a < b < |routes|
    requires MatchRoute(routes[a].0, path, regex).Some? && MatchRoute(routes[b].0, path, regex).Some?
    ensures exists k :: 0 <= k <= a
              && MatchRoute(routes[k].0, path, regex).Some?
              && Dispatch(routes, path, regex, handler)
                 == RenderRoute(routes, routes[k].0, MatchRoute(routes[k].0, path, regex).value, handler)
  {
    var m := FirstMatch(routes, path, regex, 0);
    assert m.Some?;
    var k := m.value.0;
    assert k <= a;
    assert Dispatch(routes, path, regex, handler)
        == RenderRoute(routes, routes[k].0, MatchRoute(routes[k].0, path, regex).value, handler);
  }

  /** The first matching route ends the scan even when its handler returns
      `null`: dispatch then answers `false` and no later route is tried. */
  lemma {:induction false} NullEndsScan<V>(routes: Routes, path: string, k: nat,
                                           regex: RegexOracle, handler: HandlerOracle<V>)
    requires Unique(routes) && !IsSetKey(routes, path) && k < |routes|
    requires MatchRoute(routes[k].0, path, regex).Some?
    requires forall j :: 0 <= j < k ==> MatchRoute(routes[j].0, path, regex).None?
    requires routes[k].1.Callable?
    requires handler(routes[k].1.id, MatchRoute(routes[k].0, path, regex).value).None?
    ensures Dispatch(routes, path, regex, handler) == False
  {
    assert Get(routes, routes[k].0) == Some(routes[k].1);
  }
}

=== FILE: segments.dfy ===
/** Named-parameter routes (Lime.php:752-777): route and path are both cut
    at every `/`; they match when they have equally many segments and every
    route segment that does not start with `:` equals the path segment at
    the same index. A segment `:name` binds `name` to the path segment at its
    index; a later segment with the same name overwrites the earlier value. */
module Segments {
  import opened Options
  import opened Strings
  import opened Tables

  datatype ParamValue = Text(text: string) | List(items: seq<string>)

  /** The array handed to a handler: `:captures`, `:splat` or the names of a
      named route, in insertion order. */
  type Params = Table<string, ParamValue>

  /** The name a route segment binds, if it starts with `:`. */
  function ParamName(seg: string): (r: Option<string>)
    ensures r.Some? <==> |seg| > 0 && seg[0] == ':'
    ensures r.Some? ==> seg == [':'] + r.value
  {
    if |seg| > 0 && seg[0] == ':' then Some(seg[1..]) else None
  }

  /** The `foreach` over the route segments from index `i` on, with the
      parameters bound so far in `acc`; a literal mismatch ends it. */
  function Walk(rs: seq<string>, ps: seq<string>, i: nat, acc: Params): (r: Option<Params>)
    requires |rs| == |ps| && i <= |rs| && Unique(acc)
    ensures r.Some? ==> Unique(r.value)
    decreases |rs| - i
  {
    if i == |rs| then Some(acc)
    else match ParamName(rs[i])
      case Some(name) => Walk(rs, ps, i + 1, Put(acc, name, Text(ps[i])))
      case None => if ps[i] != rs[i] then None else Walk(rs, ps, i + 1, acc)
  }

  /** The `:name` rule applied to `route` and `path`. */
  function NamedMatch(route: string, path: string): (r: Option<Params>)
    ensures r.Some? ==> Unique(r.value)
  {
    var rs := Split(route, '/');
    var ps := Split(path, '/');
    if |rs| != |ps| then None else Walk(rs, ps, 0, [])
  }

  /** Reference: equal segment counts, and literal segments agree. */
  predicate LiteralsAgree(rs: seq<string>, ps: seq<string>)
  {
    && |rs| == |ps|
    && forall i :: 0 <= i < |rs| && ParamName(rs[i]).None? ==> rs[i] == ps[i]
  }

  /** Reference: `name` is bound by segment `i` and by no later segment. */
  predicate LastBinderAt(rs: seq<string>, name: string, i: nat)
  {
    && i < |rs|
    && ParamName(rs[i]) == Some(name)
    && forall j :: i < j < |rs| ==> ParamName(rs[j]) != Some(name)
  }

  /** The last index at or after `from` whose segment binds `name`. */
  function LastBinder(rs: seq<string>, name: string, from: nat): (r: Option<nat>)
    ensures r.Some? ==> from <= r.value && LastBinderAt(rs, name, r.value)
    ensures r.None? ==> forall j :: from <= j < |rs| ==> ParamName(rs[j]) != Some(name)
    decreases |rs| - from
  {
    if from >= |rs| then None
    else match LastBinder(rs, name, from + 1)
      case Some(k) => Some(k)
      case None => if ParamName(rs[from]) == Some(name) then Some(from) else None
  }

  lemma {:induction false} WalkSome(rs: seq<string>, ps: seq<string>, i: nat, acc: Params)
    requires |rs| == |ps| && i <= |rs| && Unique(acc)
    ensures Walk(rs, ps, i, acc).Some?
        <==> forall j :: i <= j < |rs| && ParamName(rs[j]).None? ==> rs[j] == ps[j]
    decreases |rs| - i
  {
    if i < |rs| {
      match ParamName(rs[i])
      case Some(name) =>
        WalkSome(rs, ps, i + 1, Put(acc, name, Text(ps[i])));
      case None =>
        if ps[i] == rs[i] {
          WalkSome(rs, ps, i + 1, acc);
        }
    }
  }

  lemma {:induction false} WalkBindings(rs: seq<string>, ps: seq<string>, i: nat, acc: Params, name: string)
    requires |rs| == |ps| && i <= |rs| && Unique(acc)
    requires Walk(rs, ps, i, acc).Some?
    ensures Get(Walk(rs, ps, i, acc).value, name)
         == (match LastBinder(rs, name, i)
             case Some(k) => Some(Text(ps[k]))
             case None => Get(acc, name))
    decreases |rs| - i
  {
    if i < |rs| {
      match ParamName(rs[i])
      case Some(m) =>
        var acc' := Put(acc, m, Text(ps[i]));
        WalkBindings(rs, ps, i + 1, acc', name);
        if m != name {
          PutOther(acc, m, Text(ps[i]), name);
        }
      case None =>
        WalkBindings(rs, ps, i + 1, acc, name);
    }
  }

  /** A route with `:` segments matches iff the segment counts agree and
      every literal segment equals the path segment at its index. */
  lemma NamedMatchIff(route: string, path: string)
    ensures NamedMatch(route, path).Some? <==> LiteralsAgree(Split(route, '/'), Split(path, '/'))
  {
    var rs := Split(route, '/');
    var ps := Split(path, '/');
    if |rs| == |ps| {
      WalkSome(rs, ps, 0, []);
    }
  }

  /** Some route segment is `:name`. */
  predicate Binds(rs: seq<string>, name: string)
  {
    exists j :: 0 <= j < |rs| && ParamName(rs[j]) == Some(name)
  }

  /** On a match, `name` is bound iff some route segment is `:name`, and its
      value is the path segment at the index of the LAST such segment (it may
      be empty). Nothing else is bound. */
  lemma NamedMatchBindings(route: string, path: string, name: string)
    requires NamedMatch(route, path).Some?
    ensures Get(NamedMatch(route, path).value, name).Some? <==> Binds(Split(route, '/'), name)
    ensures Get(NamedMatch(route, path).value, name).Some? ==>
              exists k: nat :: && k < |Split(path, '/')|
                               && LastBinderAt(Split(route, '/'), name, k)
                               && Get(NamedMatch(route, path).value, name) == Some(Text(Split(path, '/')[k]))
  {
    var rs := Split(route, '/');
    var ps := Split(path, '/');
    assert |rs| == |ps|;
    var v := Get(NamedMatch(route, path).value, name);
    assert NamedMatch(route, path) == Walk(rs, ps, 0, []);
    WalkBindings(rs, ps, 0, [], name);
    match LastBinder(rs, name, 0)
    case Some(k) =>
      assert k < |ps| && LastBinderAt(rs, name, k) && v == Some(Text(ps[k]));
    case None =>
      assert v == Get([], name);
  }
}

=== FILE: strings.dfy ===
/** String primitives of PHP that the router and its helpers are built on:
    `explode`, `implode`, `strpos`, `ltrim`/`rtrim` with one character, and
    single-character `str_replace`. Strings are sequences of characters; the
    framework works on bytes, and every primitive here is byte-blind. */
module Strings {
  import opened Options

  /** Number of occurrences of `c` in `s`. */
  function Occurrences(s: string, c: char): nat
  {
    if |s| == 0 then 0
    else (if s[0] == c then 1 else 0) + Occurrences(s[1..], c)
  }

  /** `implode(c, parts)`. */
  function Join(parts: seq<string>, c: char): string
    requires |parts| >= 1
  {
    if |parts| == 1 then parts[0]
    else parts[0] + [c] + Join(parts[1..], c)
  }

  /** `explode(c, s)`: the pieces between the occurrences of `c`. The empty
      string gives one empty piece. */
  function Split(s: string, c: char): (parts: seq<string>)
    ensures |parts| == Occurrences(s, c) + 1
    ensures forall i :: 0 <= i < |parts| ==> c !in parts[i]
    ensures Join(parts, c) == s
    decreases |s|
  {
    if |s| == 0 then [""]
    else
      var rest := Split(s[1..], c);
      if s[0] == c then
        assert ([""] + rest)[1..] == rest;
        [""] + rest
      else
        var parts := [[s[0]] + rest[0]] + rest[1..];
        assert parts[1..] == rest[1..];
        assert s == [s[0]] + s[1..];
        parts
  }

  /** `explode` after `implode` gives the pieces back when no piece holds
      the separator. */
  lemma {:induction false} SplitJoin(parts: seq<string>, c: char)
    requires |parts| >= 1
    requires forall i :: 0 <= i < |parts| ==> c !in parts[i]
    ensures Split(Join(parts, c), c) == parts
    decreases |parts|
  {
    if |parts| == 1 {
      SplitNoSeparator(parts[0], c);
    } else {
      SplitJoin(parts[1..], c);
      SplitAfterPiece(parts[0], Join(parts[1..], c), c);
      assert parts == [parts[0]] + parts[1..];
    }
  }

  lemma {:induction false} SplitNoSeparator(s: string, c: char)
    requires c !in s
    ensures Split(s, c) == [s]
    decreases |s|
  {
    if |s| > 0 {
      SplitNoSeparator(s[1..], c);
      assert s == [s[0]] + s[1..];
    }
  }

  /** Splitting `x + [c] + y` with `c` not in `x` peels off `x`. */
  lemma {:induction false} SplitAfterPiece(x: string, y: string, c: char)
    requires c !in x
    ensures Split(x + [c] + y, c) == [x] + Split(y, c)
    decreases |x|
  {
    var s := x + [c] + y;
    if |x| == 0 {
      assert s[1..] == y;
    } else {
      assert s[1..] == x[1..] + [c] + y;
      SplitAfterPiece(x[1..], y, c);
      assert [x[0]] + x[1..] == x;
    }
  }

  /** Splitting `p + [c]` with `c` not in `p` gives `p` and an empty piece. */
  lemma SplitTrailing(p: string, c: char)
    requires c !in p
    ensures Split(p + [c], c) == [p, ""]
  {
    SplitAfterPiece(p, "", c);
    assert p + [c] + "" == p + [c];
  }

  /** `p` occurs in `s` starting at index `i`. */
  predicate PrefixAt(p: string, s: string, i: nat)
  {
    i + |p| <= |s| && s[i..i + |p|] == p
  }

  /** `strpos(s, p, from)`: the leftmost index at or after `from` where `p`
      occurs in `s`, or `None` (PHP's `false`). */
  function IndexOf(p: string, s: string, from: nat): (r: Option<nat>)
    ensures r.Some? ==> from <= r.value && PrefixAt(p, s, r.value)
    ensures r.Some? ==> forall k :: from <= k < r.value ==> !PrefixAt(p, s, k)
    ensures r.None? ==> forall k :: from <= k ==> !PrefixAt(p, s, k)
    decreases |s| + 1 - from
  {
    if from > |s| then None
    else if PrefixAt(p, s, from) then Some(from)
    else IndexOf(p, s, from + 1)
  }

  /** `strpos(s, p) !== false`. */
  predicate Contains(s: string, p: string)
  {
    IndexOf(p, s, 0).Some?
  }

  /** `explode(c, s, 2)` when it gives two pieces: the split at the FIRST `c`. */
  function SplitFirst(s: string, c: char): (r: Option<(string, string)>)
    ensures r.None? <==> c !in s
    ensures r.Some? ==> s == r.value.0 + [c] + r.value.1 && c !in r.value.0
    decreases |s|
  {
    if |s| == 0 then None
    else if s[0] == c then
      assert s == [] + [c] + s[1..];
      Some(("", s[1..]))
    else
      match SplitFirst(s[1..], c)
      case None => None
      case Some((a, b)) =>
        assert s == [s[0]] + s[1..];
        Some(([s[0]] + a, b))
  }

  /** `ltrim(s, c)`: `s` without its run of leading `c`. */
  function LTrim(s: string, c: char): (r: string)
    ensures |r| <= |s| && r == s[|s| - |r|..]
    ensures |r| == 0 || r[0] != c
    ensures forall i :: 0 <= i < |s| - |r| ==> s[i] == c
    decreases |s|
  {
    if |s| > 0 && s[0] == c then LTrim(s[1..], c) else s
  }

  /** `rtrim(s, c)`: `s` without its run of trailing `c`. */
  function RTrim(s: string, c: char): (r: string)
    ensures |r| <= |s| && r == s[..|r|]
    ensures |r| == 0 || r[|r| - 1] != c
    ensures forall i :: |r| <= i < |s| ==> s[i] == c
    decreases |s|
  {
    if |s| > 0 && s[|s| - 1] == c then RTrim(s[..|s| - 1], c) else s
  }

  /** `str_replace(a, b, s)` for single characters. */
  function ReplaceChar(s: string, a: char, b: char): (r: string)
    ensures |r| == |s|
    ensures forall i :: 0 <= i < |s| ==> r[i] == (if s[i] == a then b else s[i])
    decreases |s|
  {
    if |s| == 0 then ""
    else [if s[0] == a then b else s[0]] + ReplaceChar(s[1..], a, b)
  }

  /** Splitting `a + [c] + b` at the first `c` gives `a` back when `c` is
      not in `a`, whatever `b` holds. */
  lemma {:induction false} SplitFirstOf(a: string, b: string, c: char)
    requires c !in a
    ensures SplitFirst(a + [c] + b, c) == Some((a, b))
    decreases |a|
  {
    var s := a + [c] + b;
    if |a| == 0 {
      assert s[0] == c && s[1..] == b;
    } else {
      assert s[0] == a[0] && s[1..] == a[1..] + [c] + b;
      SplitFirstOf(a[1..], b, c);
      assert [a[0]] + a[1..] == a;
    }
  }

  /** Leading `c`s added in front are trimmed away again. */
  lemma {:induction false} LTrimPrefix(s: string, c: char)
    ensures LTrim([c] + s, c) == LTrim(s, c)
  {
    assert ([c] + s)[1..] == s;
  }
}

=== FILE: tables.dfy ===
/** An insertion-ordered associative array, the shape of every PHP array the
    framework keys by string: assigning to a present key replaces its value
    where it stands, assigning to a new key appends it. */
module Tables {
  import opened Options

  type Table<K, V> = seq<(K, V)>

  /** No key appears twice. */
  predicate Unique<K(==), V>(t: Table<K, V>)
  {
    forall i, j :: 0 <= i < j < |t| ==> t[i].0 != t[j].0
  }

  /** The keys in iteration order. */
  function Keys<K(==), V>(t: Table<K, V>): (ks: seq<K>)
    ensures |ks| == |t|
    ensures forall i :: 0 <= i < |t| ==> ks[i] == t[i].0
  {
    seq(|t|, i requires 0 <= i < |t| => t[i].0)
  }

  /** Position of key `k`, searching from index `from`. */
  function Find<K(==), V>(t: Table<K, V>, k: K, from: nat): (r: Option<nat>)
    ensures r.Some? ==> from <= r.value < |t| && t[r.value].0 == k
    ensures r.Some? ==> forall j :: from <= j < r.value ==> t[j].0 != k
    ensures r.None? ==> forall j :: from <= j < |t| ==> t[j].0 != k
    decreases |t| - from
  {
    if from >= |t| then None
    else if t[from].0 == k then Some(from)
    else Find(t, k, from + 1)
  }

  /** `k` is a key of `t` (PHP's `array_key_exists`). */
  predicate HasKey<K(==), V>(t: Table<K, V>, k: K)
  {
    Find(t, k, 0).Some?
  }

  /** `t[k]`, or `None` when the key is missing. */
  function Get<K(==), V>(t: Table<K, V>, k: K): (r: Option<V>)
    ensures r.None? <==> forall j :: 0 <= j < |t| ==> t[j].0 != k
    ensures Unique(t) ==> forall j :: 0 <= j < |t| && t[j].0 == k ==> r == Some(t[j].1)
  {
    match Find(t, k, 0)
    case Some(i) => Some(t[i].1)
    case None => None
  }

  /** `t[k] = v`. */
  function Put<K(==), V>(t: Table<K, V>, k: K, v: V): (r: Table<K, V>)
    requires Unique(t)
    ensures |r| >= |t|
    ensures Unique(r)
    ensures Get(r, k) == Some(v)
    ensures forall j :: 0 <= j < |t| && t[j].0 != k ==> r[j] == t[j]
    ensures HasKey(t, k) ==> |r| == |t| && Keys(r) == Keys(t)
    ensures !HasKey(t, k) ==> r == t + [(k, v)]
  {
    match Find(t, k, 0)
    case Some(i) =>
      var r := t[i := (k, v)];
      assert Keys(r) == Keys(t);
      r
    case None =>
      var r := t + [(k, v)];
      assert r[|t|].0 == k;
      r
  }

  /** A write to one key leaves every other key's value as it was. */
  lemma PutOther<K, V>(t: Table<K, V>, k: K, v: V, other: K)
    requires Unique(t) && other != k
    ensures Get(Put(t, k, v), other) == Get(t, other)
  {
    var r := Put(t, k, v);
    match Find(t, other, 0)
    case Some(i) =>
      assert r[i] == t[i];
    case None =>
      assert forall j :: 0 <= j < |r| ==> r[j].0 != other by {
        forall j | 0 <= j < |r|
          ensures r[j].0 != other
        {
          if j < |t| && t[j].0 == k {
            assert r[j].0 == k;
          } else if j < |t| {
            assert r[j] == t[j];
          } else {
            assert !HasKey(t, k) && r[j] == (k, v);
          }
        }
      }
  }
}

=== FILE: urls.dfy ===
/** Link building and the redirect target (Lime.php:302-335): `baseUrl` and
    `routeUrl` glue a path under a configured prefix with exactly one `/`
    between them, and `reroute` sends full URLs through untouched. */
module Urls {
  import opened Strings

  /** The two registry entries the helpers read. */
  datatype Config = Config(baseUrl: string, baseRoute: string)

  /** `r` is `base`, one `/`, and what remains of `path` once its leading
      `/`s are dropped: a suffix of `path`, every character cut off is a `/`,
      and the suffix does not itself start with `/`. */
  predicate JoinedUrl(r: string, base: string, path: string)
  {
    |base| + 1 <= |r| && r[..|base| + 1] == base + "/" &&
    var tail := r[|base| + 1..];
    |tail| <= |path| && tail == path[|path| - |tail|..] &&
    (forall i :: 0 <= i < |path| - |tail| ==> path[i] == '/') &&
    (|tail| == 0 || tail[0] != '/')
  }

  /** The base, one `/`, and the path with its leading `/`s trimmed. */
  function JoinUrl(base: string, path: string): (r: string)
    ensures JoinedUrl(r, base, path)
  {
    var r := base + "/" + LTrim(path, '/');
    assert r[..|base| + 1] == base + "/";
    assert r[|base| + 1..] == LTrim(path, '/');
    r
  }

  /** The description is complete: at most one string fits it. */
  lemma {:induction false} JoinedUrlUnique(r1: string, r2: string, base: string, path: string)
    requires JoinedUrl(r1, base, path) && JoinedUrl(r2, base, path)
    ensures r1 == r2
  {
    var t1, t2 := r1[|base| + 1..], r2[|base| + 1..];
    assert |t1| == |t2|;
    assert r1 == r1[..|base| + 1] + t1;
    assert r2 == r2[..|base| + 1] + t2;
  }

  /** `App::baseUrl`. */
  function BaseUrl(cfg: Config, path: string): (r: string)
    ensures JoinedUrl(r, cfg.baseUrl, path)
  {
    JoinUrl(cfg.baseUrl, path)
  }

  /** `App::routeUrl`. */
  function RouteUrl(cfg: Config, path: string): (r: string)
    ensures JoinedUrl(r, cfg.baseRoute, path)
  {
    JoinUrl(cfg.baseRoute, path)
  }

  /** Any number of leading `/`s on the path give the same link. */
  lemma {:induction false} LeadingSlashIgnored(cfg: Config, path: string)
    ensures RouteUrl(cfg, "/" + path) == RouteUrl(cfg, path)
    ensures BaseUrl(cfg, "/" + path) == BaseUrl(cfg, path)
  {
    LTrimPrefix(path, '/');
  }

  /** The `Location` a call to `reroute($path)` sends: a path holding `://`
      unchanged, anything else made absolute and put under the route base. */
  function RerouteTarget(cfg: Config, path: string): (r: string)
    ensures Contains(path, "://") ==> r == path
    ensures !Contains(path, "://") ==> JoinedUrl(r, cfg.baseRoute, path)
  {
    if Contains(path, "://") then path
    else
      var absolute := if |path| >= 1 && path[0] == '/' then path else "/" + path;
      LeadingSlashIgnored(cfg, path);
      RouteUrl(cfg, absolute)
  }

  /** Making the path absolute first changes nothing: a redirect to a local
      path goes to exactly the link `routeUrl` builds for it. */
  lemma {:induction false} RerouteIsRouteUrl(cfg: Config, path: string)
    requires !Contains(path, "://")
    ensures RerouteTarget(cfg, path) == RouteUrl(cfg, path)
  {
    JoinedUrlUnique(RerouteTarget(cfg, path), RouteUrl(cfg, path), cfg.baseRoute, path);
  }
}

=== FILE: wildcard.dfy ===
/** Wildcard routes (Lime.php:739-748). A route holding `*` is quoted
    literally, each `*` becomes a greedy capturing group `(.*)`, and the result
    is matched against the path with no anchors. So a route is the sequence of
    its literal pieces (the text between the `*`s), and a match is found the
    way a backtracking regular-expression engine finds it: leftmost start
    first, and at each group the longest span first. `.` does not match a line
    feed, so no group spans one. */
module Wildcard {
  import opened Options
  import opened Strings

  predicate NoNewline(s: string)
  {
    '\n' !in s
  }

  /** The literal pieces of a wildcard route, in order. */
  function Pieces(route: string): (lits: seq<string>)
    ensures |lits| == Occurrences(route, '*') + 1
  {
    Split(route, '*')
  }

  /** The text a match covers: the pieces with the captured groups between them. */
  function Interleave(lits: seq<string>, caps: seq<string>): string
    requires |lits| >= 1 && |caps| == |lits| - 1
  {
    if |lits| == 1 then lits[0]
    else lits[0] + caps[0] + Interleave(lits[1..], caps[1..])
  }

  lemma PrefixAtConcat(a: string, b: string, s: string, i: nat)
    requires PrefixAt(a, s, i) && PrefixAt(b, s, i + |a|)
    ensures PrefixAt(a + b, s, i)
  {
    assert s[i..i + |a| + |b|] == s[i..i + |a|] + s[i + |a|..i + |a| + |b|];
  }

  /** The longest span a group starting at `i` can take: up to the next
      line feed, or to the end. */
  function GroupEnd(s: string, i: nat): (e: nat)
    requires i <= |s|
    ensures i <= e <= |s|
    ensures forall k :: i <= k < e ==> s[k] != '\n'
    ensures e == |s| || s[e] == '\n'
    ensures NoNewline(s) ==> e == |s|
    decreases |s| - i
  {
    if i == |s| then i
    else if s[i] == '\n' then
      assert s[i] in s;
      i
    else GroupEnd(s, i + 1)
  }

  /** Match `lits[0] (.*) lits[1] ... (.*) lits[n]` starting exactly at `i`;
      the result is the list of group texts. */
  function MatchAt(lits: seq<string>, s: string, i: nat): (r: Option<seq<string>>)
    requires |lits| >= 1 && i <= |s|
    ensures r.Some? ==> |r.value| == |lits| - 1
    decreases |lits|, 0, 0
  {
    if !PrefixAt(lits[0], s, i) then None
    else if |lits| == 1 then Some([])
    else
      var g := i + |lits[0]|;
      TryGroup(lits[1..], s, g, GroupEnd(s, g))
  }

  /** The group opened at `g` tries its end positions `j`, `j - 1`, ..., `g`
      (longest first), each followed by a match of the remaining pieces. */
  function TryGroup(rest: seq<string>, s: string, g: nat, j: nat): (r: Option<seq<string>>)
    requires |rest| >= 1 && g <= j <= |s|
    requires forall k :: g <= k < j ==> s[k] != '\n'
    ensures r.Some? ==> |r.value| == |rest|
    decreases |rest|, 1, j - g
  {
    match MatchAt(rest, s, j)
    case Some(caps) => Some([s[g..j]] + caps)
    case None => if j == g then None else TryGroup(rest, s, g, j - 1)
  }

  /** The unanchored search: start positions `st`, `st + 1`, ..., `|s|`. */
  function Search(lits: seq<string>, s: string, st: nat): (r: Option<seq<string>>)
    requires |lits| >= 1 && st <= |s|
    ensures r.Some? ==> |r.value| == |lits| - 1
    decreases |s| - st
  {
    match MatchAt(lits, s, st)
    case Some(caps) => Some(caps)
    case None => if st == |s| then None else Search(lits, s, st + 1)
  }

  /** No captured group spans a line feed. */
  predicate LineFree(caps: seq<string>)
  {
    forall c :: 0 <= c < |caps| ==> NoNewline(caps[c])
  }

  /** What a match at `i` captured, put back between the pieces, is the text
      of `s` at `i`. */
  lemma {:induction false} MatchAtSound(lits: seq<string>, s: string, i: nat)
    requires |lits| >= 1 && i <= |s|
    ensures MatchAt(lits, s, i).Some? ==>
              && PrefixAt(Interleave(lits, MatchAt(lits, s, i).value), s, i)
              && LineFree(MatchAt(lits, s, i).value)
    decreases |lits|, 0, 0
  {
    if PrefixAt(lits[0], s, i) && |lits| > 1 {
      var g := i + |lits[0]|;
      var r := TryGroup(lits[1..], s, g, GroupEnd(s, g));
      TryGroupSound(lits[1..], s, g, GroupEnd(s, g));
      if r.Some? {
        PrefixAtConcat(lits[0], r.value[0] + Interleave(lits[1..], r.value[1..]), s, i);
        assert lits[0] + (r.value[0] + Interleave(lits[1..], r.value[1..]))
            == Interleave(lits, r.value);
      }
    }
  }

  lemma {:induction false} TryGroupSound(rest: seq<string>, s: string, g: nat, j: nat)
    requires |rest| >= 1 && g <= j <= |s|
    requires forall k :: g <= k < j ==> s[k] != '\n'
    ensures TryGroup(rest, s, g, j).Some? ==>
              && PrefixAt(TryGroup(rest, s, g, j).value[0]
                          + Interleave(rest, TryGroup(rest, s, g, j).value[1..]), s, g)
              && LineFree(TryGroup(rest, s, g, j).value)
    decreases |rest|, 1, j - g
  {
    match MatchAt(rest, s, j)
    case Some(caps) =>
      MatchAtSound(rest, s, j);
      var r := [s[g..j]] + caps;
      assert r[1..] == caps;
      PrefixAtConcat(s[g..j], Interleave(rest, caps), s, g);
      assert forall c :: 0 <= c < |r| ==> NoNewline(r[c]) by {
        forall c | 0 <= c < |r|
          ensures NoNewline(r[c])
        {
          if c == 0 {
            assert forall x :: 0 <= x < |r[0]| ==> r[0][x] == s[g + x];
          } else {
            assert r[c] == caps[c - 1];
          }
        }
      }
    case None =>
      if j > g {
        TryGroupSound(rest, s, g, j - 1);
      }
  }

  lemma {:induction false} SearchSound(lits: seq<string>, s: string, st: nat)
    requires |lits| >= 1 && st <= |s|
    ensures Search(lits, s, st).Some? ==>
              && LineFree(Search(lits, s, st).value)
              && exists k :: st <= k <= |s| && PrefixAt(Interleave(lits, Search(lits, s, st).value), s, k)
    decreases |s| - st
  {
    MatchAtSound(lits, s, st);
    if MatchAt(lits, s, st).None? && st < |s| {
      SearchSound(lits, s, st + 1);
    }
  }

  /** `preg_match` of the compiled wildcard route against `path`: the
      `:splat` list on a match: one text per `*`, none holding a line
      feed. */
  function WildcardMatch(route: string, path: string): (r: Option<seq<string>>)
    ensures r.Some? ==> |r.value| == Occurrences(route, '*') && LineFree(r.value)
  {
    SearchSound(Pieces(route), path, 0);
    Search(Pieces(route), path, 0)
  }

  /** Reference: the pieces occur in `s` in order, the first at `i`, each
      later one somewhere after the end of the one before. */
  ghost predicate Fits(lits: seq<string>, s: string, i: nat)
    requires |lits| >= 1
    decreases |lits|
  {
    && PrefixAt(lits[0], s, i)
    && (|lits| == 1 || exists j :: i + |lits[0]| <= j <= |s| && Fits(lits[1..], s, j))
  }

  ghost predicate OccursInOrder(lits: seq<string>, s: string)
    requires |lits| >= 1
  {
    exists st :: 0 <= st <= |s| && Fits(lits, s, st)
  }

  /** Some end position of the group in `g..j` lets the remaining pieces
      match. */
  ghost predicate SomeEndWorks(rest: seq<string>, s: string, g: nat, j: nat)
    requires |rest| >= 1 && g <= j <= |s|
  {
    exists k :: g <= k <= j && MatchAt(rest, s, k).Some?
  }

  lemma {:induction false} TryGroupSome(rest: seq<string>, s: string, g: nat, j: nat)
    requires |rest| >= 1 && g <= j <= |s|
    requires forall k :: g <= k < j ==> s[k] != '\n'
    ensures TryGroup(rest, s, g, j).Some? <==> SomeEndWorks(rest, s, g, j)
    decreases j - g
  {
    if MatchAt(rest, s, j).Some? {
      var caps := MatchAt(rest, s, j).value;
      assert TryGroup(rest, s, g, j) == Some([s[g..j]] + caps);
      assert g <= j <= j && MatchAt(rest, s, j).Some?;
    } else if j == g {
      assert TryGroup(rest, s, g, j).None?;
      forall k | g <= k <= j
        ensures MatchAt(rest, s, k).None?
      {
        assert k == j;
      }
    } else {
      assert TryGroup(rest, s, g, j) == TryGroup(rest, s, g, j - 1);
      TryGroupSome(rest, s, g, j - 1);
      if SomeEndWorks(rest, s, g, j) {
        var k :| g <= k <= j && MatchAt(rest, s, k).Some?;
        assert k <= j - 1;
        assert SomeEndWorks(rest, s, g, j - 1);
      }
      if SomeEndWorks(rest, s, g, j - 1) {
        var k :| g <= k <= j - 1 && MatchAt(rest, s, k).Some?;
        assert SomeEndWorks(rest, s, g, j);
      }
    }
  }

  lemma {:induction false} MatchAtFits(lits: seq<string>, s: string, i: nat)
    requires |lits| >= 1 && i <= |s| && NoNewline(s)
    ensures MatchAt(lits, s, i).Some? <==> Fits(lits, s, i)
    decreases |lits|
  {
    if !PrefixAt(lits[0], s, i) {
      assert MatchAt(lits, s, i).None? && !Fits(lits, s, i);
    } else if |lits| == 1 {
      assert MatchAt(lits, s, i).Some? && Fits(lits, s, i);
    } else {
      var g := i + |lits[0]|;
      var rest := lits[1..];
      assert MatchAt(lits, s, i).Some? == TryGroup(rest, s, g, |s|).Some?;
      assert Fits(lits, s, i) == exists j :: g <= j <= |s| && Fits(rest, s, j);
      TryGroupSome(rest, s, g, |s|);
      if MatchAt(lits, s, i).Some? {
        var k :| g <= k <= |s| && MatchAt(rest, s, k).Some?;
        MatchAtFits(rest, s, k);
        assert Fits(rest, s, k);
      }
      if Fits(lits, s, i) {
        var k :| g <= k <= |s| && Fits(rest, s, k);
        MatchAtFits(rest, s, k);
        assert MatchAt(rest, s, k).Some?;
      }
    }
  }

  /** Some start position in `st..|s|` gives a match. */
  ghost predicate SomeStartWorks(lits: seq<string>, s: string, st: nat)
    requires |lits| >= 1 && st <= |s|
  {
    exists k :: st <= k <= |s| && MatchAt(lits, s, k).Some?
  }

  lemma {:induction false} SearchSome(lits: seq<string>, s: string, st: nat)
    requires |lits| >= 1 && st <= |s|
    ensures Search(lits, s, st).Some? <==> SomeStartWorks(lits, s, st)
    decreases |s| - st
  {
    if MatchAt(lits, s, st).Some? {
      assert Search(lits, s, st).Some?;
      assert st <= st <= |s| && MatchAt(lits, s, st).Some?;
    } else if st == |s| {
      assert Search(lits, s, st).None?;
      forall k | st <= k <= |s|
        ensures MatchAt(lits, s, k).None?
      {
        assert k == st;
      }
    } else {
      assert Search(lits, s, st) == Search(lits, s, st + 1);
      SearchSome(lits, s, st + 1);
      if SomeStartWorks(lits, s, st) {
        var k :| st <= k <= |s| && MatchAt(lits, s, k).Some?;
        assert k >= st + 1;
        assert SomeStartWorks(lits, s, st + 1);
      }
    }
  }

  /** On a match, `:splat` holds one text per `*`, none spans a line feed,
      and the route with each `*` replaced by its text occurs in the path. */
  lemma WildcardMatchSound(route: string, path: string)
    ensures WildcardMatch(route, path).Some? ==>
              && |WildcardMatch(route, path).value| == Occurrences(route, '*')
              && LineFree(WildcardMatch(route, path).value)
              && exists k :: 0 <= k <= |path|
                   && PrefixAt(Interleave(Pieces(route), WildcardMatch(route, path).value), path, k)
  {
    SearchSound(Pieces(route), path, 0);
  }

  /** A wildcard route matches a path (without line feeds) exactly when its
      literal pieces occur in the path in order, anywhere: there are no
      anchors. */
  lemma WildcardMatchIff(route: string, path: string)
    requires NoNewline(path)
    ensures WildcardMatch(route, path).Some? <==> OccursInOrder(Pieces(route), path)
  {
    var lits := Pieces(route);
    SearchSome(lits, path, 0);
    if WildcardMatch(route, path).Some? {
      var k :| 0 <= k <= |path| && MatchAt(lits, path, k).Some?;
      MatchAtFits(lits, path, k);
    }
    if OccursInOrder(lits, path) {
      var k :| 0 <= k <= |path| && Fits(lits, path, k);
      MatchAtFits(lits, path, k);
      assert MatchAt(lits, path, k).Some?;
    }
  }

  /** With the pieces `p` and the empty text, a match at `st` exists iff `p`
      occurs there, and the one group runs to the end of the subject. */
  lemma MatchAtTrailing(p: string, s: string, st: nat)
    requires st <= |s| && NoNewline(s)
    ensures MatchAt([p, ""], s, st)
         == if PrefixAt(p, s, st) then Some([s[st + |p|..]]) else None
  {
    var lits := [p, ""];
    if PrefixAt(p, s, st) {
      var g := st + |p|;
      assert lits[1..] == [""];
      assert PrefixAt("", s, |s|);
      assert MatchAt([""], s, |s|) == Some([]);
      var x := s[g..|s|];
      assert x == s[g..];
      assert [x] + [] == [x];
      assert TryGroup([""], s, g, |s|) == Some([x]);
    }
  }

  lemma {:induction false} SearchTrailing(p: string, s: string, st: nat)
    requires st <= |s| && NoNewline(s)
    ensures Search([p, ""], s, st)
         == (match IndexOf(p, s, st)
             case Some(k) => Some([s[k + |p|..]])
             case None => None)
    decreases |s| - st
  {
    MatchAtTrailing(p, s, st);
    if !PrefixAt(p, s, st) && st < |s| {
      SearchTrailing(p, s, st + 1);
    }
  }

  /** The search from `st`, when `k` is the leftmost `p` at or after `st`,
      captures everything after that `p`. */
  lemma TrailingFrom(p: string, s: string, st: nat, k: nat)
    requires st <= |s| && NoNewline(s) && IndexOf(p, s, st) == Some(k)
    ensures k + |p| <= |s|
    ensures Search([p, ""], s, st) == Some([s[k + |p|..]])
  {
    SearchTrailing(p, s, st);
  }

  /** A route with one trailing `*`, when its prefix `p` occurs in the path
      and `k` is the LEFTMOST occurrence, matches, and `:splat` is the single
      text after that occurrence (so the route `/files/` followed by a star,
      on `/x/files/a`, gives `a`). */
  lemma TrailingStar(p: string, path: string, k: nat)
    requires '*' !in p && NoNewline(path)
    requires IndexOf(p, path, 0) == Some(k)
    ensures WildcardMatch(p + "*", path) == Some([path[k + |p|..]])
  {
    TrailingPieces(p, path);
    TrailingFrom(p, path, 0, k);
  }

  /** A route with one trailing `*` never matches a path in which its prefix
      does not occur. */
  lemma TrailingStarMissing(p: string, path: string)
    requires '*' !in p && NoNewline(path)
    requires IndexOf(p, path, 0).None?
    ensures WildcardMatch(p + "*", path).None?
  {
    TrailingPieces(p, path);
    SearchTrailing(p, path, 0);
  }

  /** The route `p` star is searched for as the pieces `p` and the empty text. */
  lemma TrailingPieces(p: string, path: string)
    requires '*' !in p
    ensures WildcardMatch(p + "*", path) == Search([p, ""], path, 0)
  {
    SplitTrailing(p, '*');
    assert Pieces(p + "*") == [p, ""];
  }

  /** `m` is the LAST position from `lo` to `hi` where `q` occurs in `s`. */
  ghost predicate LastOccurrence(q: string, s: string, lo: nat, hi: nat, m: nat)
  {
    && lo <= m <= hi
    && PrefixAt(q, s, m)
    && forall m' :: m < m' <= hi ==> !PrefixAt(q, s, m')
  }

  /** The last position from `lo` to `hi` where `q` occurs in `s`, or `None`
      when it occurs at none of them. */
  function LastBetween(q: string, s: string, lo: nat, hi: nat): (r: Option<nat>)
    ensures r.Some? ==> lo <= r.value <= hi && PrefixAt(q, s, r.value)
    decreases hi
  {
    if hi < lo then None
    else if PrefixAt(q, s, hi) then Some(hi)
    else if hi == lo then None
    else LastBetween(q, s, lo, hi - 1)
  }

  /** `LastBetween` finds the last occurrence, and finds none only when there
      is none. */
  lemma {:induction false} LastBetweenIsLast(q: string, s: string, lo: nat, hi: nat)
    ensures LastBetween(q, s, lo, hi).Some? ==> LastOccurrence(q, s, lo, hi, LastBetween(q, s, lo, hi).value)
    ensures LastBetween(q, s, lo, hi).None? ==> forall m :: lo <= m <= hi ==> !PrefixAt(q, s, m)
    decreases hi
  {
    if lo <= hi && !PrefixAt(q, s, hi) && hi > lo {
      LastBetweenIsLast(q, s, lo, hi - 1);
    }
  }

  /** A group followed by the single piece `q` takes the longest span it can:
      it ends at the last occurrence of `q` it can reach, and fails iff there
      is none. */
  lemma {:induction false} TryGroupLast(q: string, s: string, g: nat, j: nat)
    requires g <= j <= |s| && NoNewline(s)
    ensures TryGroup([q], s, g, j)
         == (match LastBetween(q, s, g, j)
             case Some(m) => Some([s[g..m]])
             case None => None)
    decreases j - g
  {
    if PrefixAt(q, s, j) {
      assert MatchAt([q], s, j) == Some([]);
      assert [s[g..j]] + [] == [s[g..j]];
    } else {
      assert MatchAt([q], s, j).None?;
      if j > g {
        TryGroupLast(q, s, g, j - 1);
      }
    }
  }

  /** With the pieces `p` and `q`, a match at `st` is `p` there followed by the
      group before the last reachable `q`. */
  lemma MatchAtInner(p: string, q: string, s: string, st: nat)
    requires st <= |s| && NoNewline(s)
    ensures MatchAt([p, q], s, st)
         == if PrefixAt(p, s, st) then TryGroup([q], s, st + |p|, |s|) else None
  {
    assert [p, q][1..] == [q];
  }

  /** A group that finds no `q` from `g` on finds none from a later start. */
  lemma GroupFailsLater(q: string, s: string, g: nat, g2: nat)
    requires g <= g2 <= |s| && NoNewline(s)
    requires TryGroup([q], s, g, |s|).None?
    ensures TryGroup([q], s, g2, |s|).None?
  {
    TryGroupLast(q, s, g, |s|);
    TryGroupLast(q, s, g2, |s|);
    LastBetweenIsLast(q, s, g, |s|);
    LastBetweenIsLast(q, s, g2, |s|);
  }

  /** The search for the pieces `p` and `q` from `st` stops at the leftmost
      `p` at or after `st`, and succeeds iff the group after it reaches a
      `q`. */
  lemma {:induction false} SearchInnerAt(p: string, q: string, s: string, st: nat, k: nat)
    requires st <= |s| && NoNewline(s) && IndexOf(p, s, st) == Some(k)
    ensures Search([p, q], s, st) == TryGroup([q], s, k + |p|, |s|)
    decreases |s| - st, 1
  {
    if PrefixAt(p, s, st) {
      SearchInnerHere(p, q, s, st);
    } else {
      MatchAtInner(p, q, s, st);
      SearchInnerAt(p, q, s, st + 1, k);
    }
  }

  /** With no `p` at or after `st`, the search fails. */
  lemma {:induction false} SearchInnerNone(p: string, q: string, s: string, st: nat)
    requires st <= |s| && NoNewline(s) && IndexOf(p, s, st).None?
    ensures Search([p, q], s, st).None?
    decreases |s| - st
  {
    MatchAtInner(p, q, s, st);
    if st < |s| {
      SearchInnerNone(p, q, s, st + 1);
    }
  }

  lemma {:induction false} SearchInnerHere(p: string, q: string, s: string, st: nat)
    requires st <= |s| && NoNewline(s) && PrefixAt(p, s, st)
    ensures Search([p, q], s, st) == TryGroup([q], s, st + |p|, |s|)
    decreases |s| - st, 0
  {
    MatchAtInner(p, q, s, st);
    var g := st + |p|;
    if TryGroup([q], s, g, |s|).None? && st < |s| {
      match IndexOf(p, s, st + 1)
      case Some(k) =>
        SearchInnerAt(p, q, s, st + 1, k);
        GroupFailsLater(q, s, g, k + |p|);
      case None =>
        SearchInnerNone(p, q, s, st + 1);
    }
  }

  /** The route `p` star `q` is searched for as the pieces `p` and `q`. */
  lemma InnerPieces(p: string, q: string, path: string)
    requires '*' !in p && '*' !in q
    ensures WildcardMatch(p + "*" + q, path) == Search([p, q], path, 0)
  {
    SplitAfterPiece(p, q, '*');
    SplitNoSeparator(q, '*');
    assert Pieces(p + "*" + q) == [p, q];
  }

  /** Whatever equals the group after `g` followed by `q` ends at the last
      `q`. */
  lemma GroupReachesLast(q: string, s: string, g: nat, r: Option<seq<string>>)
    requires g <= |s| && NoNewline(s)
    requires r == TryGroup([q], s, g, |s|)
    ensures r == (match LastBetween(q, s, g, |s|)
                  case None => None
                  case Some(m) => Some([s[g..m]]))
  {
    TryGroupLast(q, s, g, |s|);
  }

  /** The search from `st`, when `k` is the leftmost `p` at or after `st`,
      captures up to the last `q` reachable after it. */
  lemma InnerSearch(p: string, q: string, s: string, st: nat, k: nat)
    requires st <= |s| && NoNewline(s) && IndexOf(p, s, st) == Some(k)
    ensures Search([p, q], s, st)
         == (match LastBetween(q, s, k + |p|, |s|)
             case None => None
             case Some(m) => Some([s[k + |p|..m]]))
  {
    SearchInnerAt(p, q, s, st, k);
    GroupReachesLast(q, s, k + |p|, Search([p, q], s, st));
  }

  /** A route with one `*` between the pieces `p` and `q`, when `p` occurs in
      the path and `k` is its LEFTMOST occurrence, matches iff `q` occurs at or
      after the end of that `p`; the one capture then runs from there to the
      LAST such occurrence of `q` (so `/a/` star `/b` on `/a/x/b` gives `x`,
      and on `/a/x/b/y/b` gives `x/b/y`). */
  lemma MiddleStar(p: string, q: string, path: string, k: nat)
    requires '*' !in p && '*' !in q && NoNewline(path)
    requires IndexOf(p, path, 0) == Some(k)
    ensures WildcardMatch(p + "*" + q, path)
         == (match LastBetween(q, path, k + |p|, |path|)
             case None => None
             case Some(m) => Some([path[k + |p|..m]]))
  {
    InnerPieces(p, q, path);
    InnerSearch(p, q, path, 0, k);
  }

  /** A route with one `*` between the pieces `p` and `q` never matches a path
      in which `p` does not occur. */
  lemma MiddleStarMissing(p: string, q: string, path: string)
    requires '*' !in p && '*' !in q && NoNewline(path)
    requires IndexOf(p, path, 0).None?
    ensures WildcardMatch(p + "*" + q, path).None?
  {
    InnerPieces(p, q, path);
    SearchInnerNone(p, q, path, 0);
  }
}
